=== FILE: README.md ===
# sv-todo core, modelled in Dafny

sv-todo is a browser checklist for Stardew Valley players. Each row is an item
(name, season, category, favourite gift) with one need cell and one progress
counter per demand type (献祭 donation, 任务 quest, 菜谱, 制造, 出货, 混合栽培,
图腾柱). The donation and quest columns are not typed in: they are derived
from the community-centre bundles and the quests the player has ticked, by
folding over the static catalog in `scripts/data.js`. The table then filters
rows by season, category and demand type, and moves completed rows below the
incomplete ones.

This project models that core as pure functions over immutable data:

- `util.dfy` (`Util`): `Option`, `Result`, map lookup with a default, `NoDuplicates`.
- `catalog.dfy` (`Catalog`): entries, bundles/quests, groups, the demand-type
  columns, every donation bundle and every quest of `scripts/data.js`, and the
  effective default quest selection.
- `catalog_facts.dfy` (`CatalogFacts`): ids are unique across each catalog.
- `catalog_needs.dfy` (`CatalogNeeds`): what selecting two particular bundles
  asks for (a bundle that lists wood twice; a quality-only entry).
- `aggregate.dfy` (`Aggregator`): the need/source fold shared by donations and
  quests, against a reference definition as a flat list of contributions.
- `ledger.dfy` (`Ledger`): items, need cells, and the recompute that restores
  baselines and writes the two derived columns.
- `progress.dfy` (`Progress`): per-row totals under a demand-type filter, the
  completion test, the cell clicks and the resets.
- `tokens.dfy` (`Tokens`): trimming, season/category tokenising, and the
  season and category option lists.
- `table.dfy` (`Table`): the row filter and the complete-last stable sort.
- `csv.dfy` (`Csv`): `parseCSV` and the need-cell reading of the loader.

## Model

| member | source | states |
|---|---|---|
| Catalog.DemandTypesShape | scripts/data.js:4-13 | seven distinct demand-type columns, including the donation and quest columns, which differ |
| Catalog.DefaultSelectedQuestIds | scripts/data.js:1056-1060 | the default quest selection holds exactly the ids of all quests of all groups; this later definition is the one in effect |
| Catalog.CollectIds | scripts/data.js:1056-1060 | walking every group's members collects exactly the ids some member carries |
| CatalogFacts.DonationBundleIdsUnique | scripts/data.js:37-398 | no two donation bundles share an id, so a selection set picks bundles unambiguously |
| CatalogFacts.QuestIdsUnique | scripts/data.js:758-1039 | no two quests share an id |
| CatalogNeeds.ConstructionEntries | scripts/data.js:82-90 | the construction bundle's entries ask 198 wood, through two source records of 99 |
| CatalogNeeds.ConstructionNeedsWood | scripts/index.js:264-295 | selecting only the construction bundle gives wood a need of 198 and two 工艺室/建筑收集包 ×99 sources |
| CatalogNeeds.QualityEntryAddsZero | scripts/index.js:279-288 | the silver-wine entry of the missing bundle has no count: selecting that bundle puts wine in the map with need 0 and one ×0 source |
| Aggregator.Aggregate | scripts/index.js:264-328 | the fold's need map and source map have exactly the items some selected entry names as keys; each need is the sum, and each source list the in-order records, of the reference contribution list |
| Aggregator.AggregateNeedOf | scripts/index.js:345-346 | `needMap.get(name) \|\| 0` is the reference need, 0 for an item nothing selected asks for |
| Aggregator.ApplyNeed | scripts/index.js:279-281 | the per-entry need update, folded over a list, adds up the counts per item from the starting map |
| Aggregator.ApplySources | scripts/index.js:283-288 | the per-entry source update appends exactly that item's records, in order, to the starting list |
| Aggregator.ApplyKeys | scripts/index.js:281-283 | after the fold an item is a key of both maps exactly when it was one before or some contribution names it |
| Aggregator.NeedIsSumOfSources | scripts/index.js:279-288 | the need of an item equals the sum of the counts in its source records |
| Aggregator.ContributionOrigin | scripts/index.js:274-289 | a contribution appears exactly when it is the contribution of an entry of a selected member; unselected members add nothing |
| Aggregator.SelectionAdditive | scripts/index.js:274-281 | ticking one more id adds, for every item, exactly the need that id selects alone |
| Aggregator.SingleSelection | scripts/index.js:274-289 | with unique ids, selecting one id brings in exactly the entries of the one member carrying it |
| Aggregator.SingleSelectionTally | scripts/index.js:264-295 | with unique ids, selecting one member gives every item exactly the need and the sources of that member's own entries |
| Aggregator.OnlyCatalogIdsMatter | scripts/index.js:275 | ids in the selection that name no member change nothing |
| Ledger.RestoreBaseline | scripts/index.js:331-338 | each demand type present in the baseline takes its baseline value; every other cell is kept |
| Ledger.RecomputeItem | scripts/index.js:330-357 | one row: baseline restored, donation and quest cells overwritten with the given counts, all other fields unchanged |
| Ledger.RecomputeDynamicNeeds | scripts/index.js:330-357 | every row's donation cell holds the aggregated need for its name over the selected bundles, its quest cell that over the selected quests, and the rest is restored or kept |
| Ledger.RecomputeIdempotent | scripts/index.js:330-357 | recomputing twice with the same selections gives what recomputing once gives |
| Progress.TotalsOver | scripts/index.js:86-101 | done never exceeds need; the unbounded flag is set exactly when some visible cell is `x`; done equals need exactly when every visible counted cell has reached its need |
| Progress.GetTotals | scripts/index.js:76-102 | the totals are those of the loop over the visible types (all demand types when the filter is empty), so `TotalsSingle`/`TotalsAppend` fix them: `x` cells are left out of both sums and each done is clamped to its need; done never exceeds need, the flag is set exactly when some visible cell is `x`, and done equals need exactly when every visible counted cell has reached its need |
| Progress.TotalsSingle | scripts/index.js:86-101 | one `x` cell adds 0 to both sums and raises the flag; any other cell adds its need and its done clamped to that need |
| Progress.TotalsAppend | scripts/index.js:86-101 | the totals over two runs of types are the sums of their totals, with either flag raising it; with the previous row this fixes the totals of every type list |
| Progress.TotalsAllUnbounded | scripts/index.js:86-101 | when every visible cell is `x`, need and done are both 0 |
| Progress.IsComplete | scripts/index.js:105-108 | complete exactly when the visible counted need is positive and every visible cell is satisfied |
| Progress.AllUnboundedNeverComplete | scripts/index.js:86-108 | a row whose visible cells are all `x` is never complete, whatever its counters hold |
| Progress.TotalCellOf | scripts/index.js:707-719 | the total column shows a fraction exactly when no visible cell is `x` and the visible need is positive; the fraction has a positive need and a done no larger |
| Progress.TotalCellFull | scripts/index.js:707-719 | without a visible `x` cell the total column shows a full fraction n/n exactly when the row is complete; with one it shows `-` |
| Progress.CountClick | scripts/index.js:659-666 | a click below the need counts up by one; at or above it, the count wraps to 0 |
| Progress.ToggleClick | scripts/index.js:634-636 | an `x` cell's click yields 1 exactly when the done was not positive, else 0 |
| Progress.ToggleTwice | scripts/index.js:634-636 | two clicks on an `x` cell restore a 0/1 counter |
| Progress.ClicksCountUp | scripts/index.js:659-666 | from 0, k clicks (k up to the need) give k |
| Progress.ClicksWrap | scripts/index.js:659-666 | from 0, need+1 clicks return to 0, so the cell cycles 0..need |
| Progress.ClickCell | scripts/index.js:630-666 | a click changes only that type's counter; `x` cells toggle; counted cells with a positive need take the count-up-or-wrap value; cells with need ≤ 0 have no handler; a counter within [0, need] stays there |
| Progress.ResetRow | scripts/index.js:728-731 | every demand type's counter is 0 afterwards; other counters and fields are unchanged |
| Progress.ResetAll | scripts/index.js:749-753 | every row keeps its fields, has all demand-type counters at 0, and keeps its counters of other types |
| Progress.ResetRowIncomplete | scripts/index.js:105-108 | after a row reset no row is complete under any filter of demand types, whatever its needs, negative ones included |
| Tokens.Trim | scripts/index.js:143 | the result is no longer than the input and starts and ends with non-whitespace |
| Tokens.TrimCutsWhitespace | scripts/index.js:143 | trimming removes only leading and trailing whitespace |
| Tokens.TrimKeeps | scripts/index.js:143 | a string without surrounding whitespace is its own trim |
| Tokens.Tokenize | scripts/index.js:148-151 | every token is non-empty and free of the separators `;`, `、`, `/` and whitespace |
| Tokens.TokenizeText | scripts/index.js:148-151 | the tokens concatenated are the input with every separator removed: nothing but separators is lost |
| Tokens.TokenizeJoin | scripts/index.js:148-151 | tokenising `;`-joined well-formed tokens gives back those tokens |
| Tokens.SeasonTokens | scripts/index.js:142-152 | a blank season gives no tokens; `四季` gives the single year-round token; every token is non-empty and separator-free |
| Tokens.SeasonTokensText | scripts/index.js:142-152 | the season tokens concatenated are the season text without separators |
| Tokens.SeasonTokensJoin | scripts/index.js:142-152 | reading `;`-joined well-formed seasons gives back those seasons |
| Tokens.CategoryTokens | scripts/index.js:154-163 | a blank category gives no tokens; every token is non-empty and separator-free |
| Tokens.CategoryTokensText | scripts/index.js:154-163 | the category tokens concatenated are the category text without separators |
| Tokens.CategoryTokensJoin | scripts/index.js:154-163 | reading `;`-joined well-formed categories gives back those categories |
| Tokens.TokenizeJoinRuns | scripts/index.js:148-151 | tokens written with any non-empty run of `;`, `、`, `/` and whitespace between them read back as those tokens |
| Tokens.SeasonTokensJoinRuns | scripts/index.js:142-152 | a season field written with any separator runs between its tokens reads back as those tokens |
| Tokens.CategoryTokensJoinRuns | scripts/index.js:154-163 | a category field written with any separator runs between its tokens reads back as those tokens |
| Tokens.TokenizeFramed | scripts/index.js:148-151 | tokens written with separator runs between them and any separator run before and after them read back as exactly those tokens; every field has that form, so this fixes the tokens of every field |
| Tokens.SeasonTokensFramed | scripts/index.js:142-152 | a season field with separator runs around and between its tokens, such as `/春;夏`, reads back as those tokens |
| Tokens.CategoryTokensFramed | scripts/index.js:154-163 | a category field with separator runs around and between its tokens reads back as those tokens |
| Tokens.SeasonTokensAreTokens | scripts/index.js:142-152 | the trim, the blank check and the `四季` shortcut give what splitting the raw field gives, on every field |
| Tokens.CategoryTokensAreTokens | scripts/index.js:154-163 | the trim and the blank check give what splitting the raw field gives, on every field |
| Tokens.TokenizeTrim | scripts/index.js:143-151 | trimming before the split changes no token |
| Tokens.SeparatorsOnlyNoTokens | scripts/index.js:142-163 | a field of separators only, such as `;;`, has no season and no category token |
| Tokens.CleanSingle | scripts/index.js:150-151 | one piece is kept, trimmed, exactly when its trim is non-empty |
| Tokens.CleanAppend | scripts/index.js:150-151 | trimming and dropping empty pieces works piece by piece over a concatenation |
| Tokens.CleanIdempotent | scripts/index.js:150-151 | a second trim-and-filter pass keeps every piece the first kept |
| Tokens.AddTokens | scripts/index.js:115-119 | adding to the set keeps it duplicate-free, keeps the old members first and in order, and holds exactly the old members and the new non-skipped tokens |
| Tokens.AddTokensSingle | scripts/index.js:115-119 | one token is appended at the end exactly when it is neither present nor skipped |
| Tokens.AddTokensAppend | scripts/index.js:115-119 | adding two runs of tokens is adding the first and then the second; with the previous row this fixes the insertion order |
| Tokens.AddListsFlat | scripts/index.js:113-121 | the loop over items adds all their token lists as one run, in item order |
| Tokens.AllSeasons | scripts/index.js:110-123 | the season options are duplicate-free, never include `四季`, and hold exactly the season tokens some row names |
| Tokens.AllCategories | scripts/index.js:125-134 | the category options are duplicate-free and hold exactly the category tokens some row names |
| Tokens.AllSeasonsOrder | scripts/index.js:110-123 | the season options are the season tokens of the items added in item and token order, so each appears at its first occurrence |
| Tokens.AllCategoriesOrder | scripts/index.js:125-134 | the category options are the category tokens of the items added in item and token order |
| Table.FilterRows | scripts/index.js:509-547 | every shown row passes the three filter steps and comes from the input; every passing row is shown; with no demand type ticked nothing is shown |
| Table.FilterSingle | scripts/index.js:509-547 | one row is kept exactly when it passes the filter |
| Table.FilterAppend | scripts/index.js:509 | filtering distributes over concatenation, so shown rows keep their order and multiplicity; with the previous row this fixes the result |
| Table.NoSelectionKeepsAll | scripts/index.js:509-547 | with a demand type ticked and no season or category, every row is shown, in order |
| Table.YearRoundPasses | scripts/index.js:513-520 | a row whose season tokens include `四季` passes every season selection |
| Table.BlankSeasonPasses | scripts/index.js:513-520 | a row whose season field has no token (blank, or separators only) is never held back by the season filter |
| Table.BlankCategoryPasses | scripts/index.js:527-536 | a row whose category field has no token (blank, or separators only) is never held back by the category filter |
| Table.SeasonSelectionMonotone | scripts/index.js:513-520 | ticking more seasons never hides a shown row |
| Table.CategorySelectionMonotone | scripts/index.js:527-536 | ticking more categories never hides a shown row |
| Table.OfferedSeasonShowsRow | scripts/index.js:110-123 | ticking any offered season alone shows at least one row |
| Table.OfferedCategoryShowsRow | scripts/index.js:125-134 | ticking any offered category alone shows at least one row |
| Table.PartitionPermutes | scripts/index.js:550-555 | the incomplete rows followed by the complete rows are a permutation of the rows |
| Table.PartitionShape | scripts/index.js:550-555 | in that order, no complete row precedes an incomplete one |
| Table.SortCompleteLast | scripts/index.js:550-555 | the stable sort yields the incomplete rows in their order, then the complete rows in theirs: a permutation with completed rows last |
| Csv.SplitOn | scripts/index.js:193 | splitting gives at least one piece and no piece contains the separator |
| Csv.JoinSplit | scripts/index.js:193 | joining the pieces with the separator gives back the text |
| Csv.SplitJoin | scripts/index.js:193 | splitting separator-free pieces joined by it gives back the pieces |
| Csv.Cells | scripts/index.js:197 | one cell more than the line has commas; no cell holds a comma or starts or ends with whitespace |
| Csv.SplitOnCount | scripts/index.js:193 | a split gives one piece more than the text has separators |
| Csv.RecordOf | scripts/index.js:202-206 | a record's keys are exactly the header names |
| Csv.RecordOfCell | scripts/index.js:202-206 | a header name maps to the cell at its last position, or `''` past the end of the row |
| Csv.ParseCSV | scripts/index.js:191-208 | failure exactly when the text has no non-blank line; otherwise one record per data line, keyed by the header cells, whose values are the trimmed cells of that line in header order, `''` past its end |
| Csv.Records | scripts/index.js:199-207 | one record per line, each built from the header and that line's trimmed cells |
| Csv.ParseRendered | scripts/index.js:191-208 | reading a rendered sheet of plain cells gives one record per row built from that row's cells |
| Csv.ParseRenderedCells | scripts/index.js:191-208 | with distinct headers, every cell of a rendered sheet is read back under its header |
| Csv.LinesJoin | scripts/index.js:192-195 | text made of lines without line breaks splits into those lines, each trimmed, with the blank ones dropped |
| Csv.ParseCleanLines | scripts/index.js:191-208 | blank lines, a trailing newline and whitespace around lines do not change what the text reads as |
| Csv.ParseRenderedTrailing | scripts/index.js:191-208 | a rendered sheet followed by a newline reads as the sheet without it |
| Csv.ParseIntPrefix | scripts/index.js:228 | no number exactly when no digit follows the optional sign; with `ParseIntUnsigned` and `ParseIntSigned` the value read from every string is fixed |
| Csv.ParseIntDigits | scripts/index.js:228 | a digit string reads as its decimal value |
| Csv.ParseIntNegative | scripts/index.js:228 | a `-` before digits reads as the negated value |
| Csv.ParseIntUnsigned | scripts/index.js:228 | digits followed by text that does not start with a digit read as the value of the digits |
| Csv.ParseIntSigned | scripts/index.js:228 | a `+` or `-`, digits and any text not starting with a digit read as the signed value of the digits |
| Csv.ParseIntPlus | scripts/index.js:228 | a leading `+` and text after the digits change nothing: `+d…` reads as `d` |
| Csv.ParseNeed | scripts/index.js:222-230 | the cell is `x` exactly when the trimmed text is `x` or `X`; blank reads as 0; text that is not a number reads as 0; any other text reads as the number parseInt finds at its start |
| Csv.ParseNeedPlusSign | scripts/index.js:226-227 | the cell `+5` reads as 5 |
| Csv.ParseNeedTrailingText | scripts/index.js:226-227 | the cell `12abc` reads as 12 |
| Csv.NeedRoundTrip | scripts/index.js:222-230 | rendering a need cell and reading it back gives the same cell |

## Left out

- Presentation glue: tooltips, header and panel rendering, checkbox syncing and event wiring (`scripts/index.js:18-58`, `361-497`, `556-629` outside the click handlers, `670-705` with the source tooltip of the donation and quest cells and the favourite column, `720-727` and `735-741` with the row-reset button wiring, `767-1036`). No state logic lives there beyond what is modelled; the total column (`707-719`) is modelled as `Progress.TotalCellOf`, with its text formatting left out.
- The selection handlers of the donation and quest panels: they only add or remove ids from the selection sets, which the model takes as parameters.
- The loader `loadItemsFromCSV` (`scripts/index.js:210-246`): it fetches over the network and refers to an undefined `baseNeeds`. Only its need-cell reading is modelled (`Csv.ParseNeed`). Rows enter the model as `Item` values, with the baseline optional.
- Persistence (`saveItems`, `loadNotes`, `saveNotes`) and global notes, including the part of the full reset that clears note checkboxes and its `window.confirm` prompt.
- `makeNoteId`: it reads the clock and randomness.
- The `typeof ... === 'undefined'` guards of the aggregator: both catalogs are always defined.
- Remix bundle definitions, quality tiers and substitution: the tracker never reads them. A quality-only entry adds its name with count 0, as the code does.
- The mixed donation mode and the initial donation selection: the donation selection is a parameter.
- The first `getDefaultSelectedQuestIds` (`scripts/data.js:1042-1048`): a later declaration of the same name replaces it, so only the later one is modelled.
- Group ids and entry notes of the catalog: display-only data that no modelled operation reads.
- Csv.ParseIntPrefix: integers are unbounded, so `parseInt`'s rounding of values beyond 2^53 is not modelled.
- Csv.ParseCSV: `parseCSV` throws when the text has no non-blank line. The model returns a failure instead.
- Tokens.AllSeasons: its own contract states membership and absence of duplicates; the first-seen order that `Array.from(set)` gives is stated by `Tokens.AllSeasonsOrder` instead.
- Tokens.AllCategories: likewise; the order is stated by `Tokens.AllCategoriesOrder`.
- Table.SortCompleteLast: the stable sort is modelled as an insertion sort with the same comparator. Any stable sort gives the same result, and the comparator never orders two rows of the same class.
- Regular-expression splitting is modelled as a scan over runs of the separator characters. `\s` and `trim` use the ECMAScript WhiteSpace and LineTerminator characters.

=== FILE: aggregate.dfy ===
/** The requirement aggregator: computeDonationNeedsAndSources and
    computeQuestNeedsAndSources of scripts/index.js. Both walk the groups, then
    the bundles (or quests) of each group, skipping those whose id is not
    selected, then the entries of each selected one, adding the entry's count
    to a per-item need and appending a source record to a per-item list. The
    two differ only in the label of the source record's second field, so one
    fold over `seq<Group>` serves both. */
module Aggregator {
  import opened Util
  import opened Catalog

  /** One line of the source tooltip: the group, the bundle or quest, and the
      count that entry asked for. */
  datatype SourceRecord = SourceRecord(groupName: string, memberName: string, count: int)

  /** What one entry of a selected member adds: the item name and its record. */
  datatype Contribution = Contribution(item: string, source: SourceRecord)

  /** The fold's accumulator: `needMap` and `srcMap`. */
  datatype Tally = Tally(need: map<string, int>, sources: map<string, seq<SourceRecord>>)

  const EmptyTally: Tally := Tally(map[], map[])

  /** `Number(entry.count || 0)`: a quality-only entry has no count and adds 0. */
  function EntryCount(e: Entry): int
  {
    match e.count
    case Some(c) => c
    case None => 0
  }

  /** The contribution of entry `e` of member `memberName` in group `groupName`. */
  function EntryContribution(groupName: string, memberName: string, e: Entry): Contribution
  {
    Contribution(e.name, SourceRecord(groupName, memberName, EntryCount(e)))
  }

  // ---------------------------------------------------------------------------
  // Reference definition: the flat list of contributions, in group, then
  // member, then entry order, of the selected members only.

  function EntryContributions(groupName: string, memberName: string, es: seq<Entry>): (cs: seq<Contribution>)
    ensures |cs| == |es|
    ensures forall k :: 0 <= k < |es| ==> cs[k] == EntryContribution(groupName, memberName, es[k])
  {
    if es == [] then []
    else [EntryContribution(groupName, memberName, es[0])] + EntryContributions(groupName, memberName, es[1..])
  }

  /** What member `m` of group `groupName` contributes under selection `sel`. */
  function MemberContribution(groupName: string, m: Member, sel: set<string>): seq<Contribution>
  {
    if m.id in sel then EntryContributions(groupName, m.name, m.items) else []
  }

  function MemberContributions(groupName: string, ms: seq<Member>, sel: set<string>): seq<Contribution>
  {
    if ms == [] then []
    else MemberContribution(groupName, ms[0], sel) + MemberContributions(groupName, ms[1..], sel)
  }

  function Contributions(gs: seq<Group>, sel: set<string>): seq<Contribution>
  {
    if gs == [] then []
    else MemberContributions(gs[0].name, gs[0].members, sel) + Contributions(gs[1..], sel)
  }

  /** The total count the contributions `cs` ask of `item`. */
  function NeedFor(item: string, cs: seq<Contribution>): int
  {
    if cs == [] then 0
    else (if cs[0].item == item then cs[0].source.count else 0) + NeedFor(item, cs[1..])
  }

  /** The records of the contributions of `cs` that ask for `item`, in order. */
  function SourcesFor(item: string, cs: seq<Contribution>): seq<SourceRecord>
  {
    if cs == [] then []
    else (if cs[0].item == item then [cs[0].source] else []) + SourcesFor(item, cs[1..])
  }

  function SumCounts(rs: seq<SourceRecord>): int
  {
    if rs == [] then 0 else rs[0].count + SumCounts(rs[1..])
  }

  /** Some contribution of `cs` asks for `item`. */
  predicate Mentions(cs: seq<Contribution>, item: string)
  {
    exists k :: 0 <= k < |cs| && cs[k].item == item
  }

  // ---------------------------------------------------------------------------
  // The fold as the tracker runs it.

  /** One step of the inner loop: add the count to the item's need (starting
      from 0) and append the record to the item's source list (starting from
      an empty list). */
  function AddContribution(t: Tally, c: Contribution): Tally
  {
    Tally(t.need[c.item := GetOr(t.need, c.item, 0) + c.source.count],
          t.sources[c.item := GetOr(t.sources, c.item, []) + [c.source]])
  }

  /** The inner step applied to a flat list of contributions, left to right. */
  function Apply(t: Tally, cs: seq<Contribution>): Tally
    decreases |cs|
  {
    if cs == [] then t else Apply(AddContribution(t, cs[0]), cs[1..])
  }

  lemma {:induction false} ApplyAppend(t: Tally, a: seq<Contribution>, b: seq<Contribution>)
    ensures Apply(t, a + b) == Apply(Apply(t, a), b)
    decreases |a|
  {
    if a == [] {
      assert a + b == b;
    } else {
      assert (a + b)[0] == a[0];
      assert (a + b)[1..] == a[1..] + b;
      ApplyAppend(AddContribution(t, a[0]), a[1..], b);
    }
  }

  /** The loop over the entries of one selected member. */
  function FoldEntries(t: Tally, groupName: string, memberName: string, es: seq<Entry>): (r: Tally)
    ensures r == Apply(t, EntryContributions(groupName, memberName, es))
    decreases |es|
  {
    if es == [] then t
    else FoldEntries(AddContribution(t, EntryContribution(groupName, memberName, es[0])), groupName, memberName, es[1..])
  }

  /** The loop over the members of one group, skipping unselected ones. */
  function FoldMembers(t: Tally, groupName: string, ms: seq<Member>, sel: set<string>): (r: Tally)
    ensures r == Apply(t, MemberContributions(groupName, ms, sel))
    decreases |ms|
  {
    if ms == [] then t
    else
      var t' := if ms[0].id in sel then FoldEntries(t, groupName, ms[0].name, ms[0].items) else t;
      ApplyAppend(t, MemberContribution(groupName, ms[0], sel), MemberContributions(groupName, ms[1..], sel));
      FoldMembers(t', groupName, ms[1..], sel)
  }

  /** The loop over the groups. */
  function FoldGroups(t: Tally, gs: seq<Group>, sel: set<string>): (r: Tally)
    ensures r == Apply(t, Contributions(gs, sel))
    decreases |gs|
  {
    if gs == [] then t
    else
      ApplyAppend(t, MemberContributions(gs[0].name, gs[0].members, sel), Contributions(gs[1..], sel));
      FoldGroups(FoldMembers(t, gs[0].name, gs[0].members, sel), gs[1..], sel)
  }

  lemma MentionsCons(cs: seq<Contribution>, n: string)
    requires cs != []
    ensures Mentions(cs, n) <==> cs[0].item == n || Mentions(cs[1..], n)
  {
    if Mentions(cs, n) && cs[0].item != n {
      var k :| 0 <= k < |cs| && cs[k].item == n;
      assert cs[1..][k - 1].item == n;
    }
    if Mentions(cs[1..], n) {
      var k :| 0 <= k < |cs[1..]| && cs[1..][k].item == n;
      assert cs[k + 1].item == n;
    }
  }

  lemma {:induction false} ApplyKeys(t: Tally, cs: seq<Contribution>)
    ensures forall n :: n in Apply(t, cs).need <==> n in t.need || Mentions(cs, n)
    ensures forall n :: n in Apply(t, cs).sources <==> n in t.sources || Mentions(cs, n)
    decreases |cs|
  {
    if cs != [] {
      ApplyKeys(AddContribution(t, cs[0]), cs[1..]);
      forall n ensures Mentions(cs, n) <==> cs[0].item == n || Mentions(cs[1..], n) {
        MentionsCons(cs, n);
      }
    }
  }

  lemma {:induction false} ApplyNeed(t: Tally, cs: seq<Contribution>)
    ensures forall n :: GetOr(Apply(t, cs).need, n, 0) == GetOr(t.need, n, 0) + NeedFor(n, cs)
    decreases |cs|
  {
    if cs != [] {
      ApplyNeed(AddContribution(t, cs[0]), cs[1..]);
    }
  }

  lemma {:induction false} ApplySources(t: Tally, cs: seq<Contribution>)
    ensures forall n :: GetOr(Apply(t, cs).sources, n, []) == GetOr(t.sources, n, []) + SourcesFor(n, cs)
    decreases |cs|
  {
    if cs != [] {
      var t1 := AddContribution(t, cs[0]);
      ApplySources(t1, cs[1..]);
      forall n ensures GetOr(Apply(t, cs).sources, n, []) == GetOr(t.sources, n, []) + SourcesFor(n, cs) {
        var head := if cs[0].item == n then [cs[0].source] else [];
        assert GetOr(t1.sources, n, []) == GetOr(t.sources, n, []) + head;
        assert GetOr(t.sources, n, []) + head + SourcesFor(n, cs[1..]) == GetOr(t.sources, n, []) + (head + SourcesFor(n, cs[1..]));
      }
    }
  }

  /** computeDonationNeedsAndSources / computeQuestNeedsAndSources
      (index.js:264-328): the need map holds exactly the items some selected
      entry asks for, each with the sum of the counts asked, and the source
      map holds, for the same items, every asking entry's record in order. */
  function Aggregate(gs: seq<Group>, sel: set<string>): (r: Tally)
    ensures forall n :: n in r.need <==> Mentions(Contributions(gs, sel), n)
    ensures forall n :: n in r.sources <==> Mentions(Contributions(gs, sel), n)
    ensures forall n :: n in r.need ==> r.need[n] == NeedFor(n, Contributions(gs, sel))
    ensures forall n :: n in r.sources ==> r.sources[n] == SourcesFor(n, Contributions(gs, sel))
  {
    var r := FoldGroups(EmptyTally, gs, sel);
    ApplyKeys(EmptyTally, Contributions(gs, sel));
    ApplyNeed(EmptyTally, Contributions(gs, sel));
    ApplySources(EmptyTally, Contributions(gs, sel));
    assert forall n :: n in r.need ==> r.need[n] == GetOr(r.need, n, 0);
    assert forall n :: n in r.sources ==> r.sources[n] == GetOr(r.sources, n, []);
    r
  }

  /** `needMap.get(name) || 0`: the aggregated need of `item`, 0 when absent. */
  function NeedOf(t: Tally, item: string): int
  {
    GetOr(t.need, item, 0)
  }

  lemma AggregateNeedOf(gs: seq<Group>, sel: set<string>, item: string)
    ensures NeedOf(Aggregate(gs, sel), item) == NeedFor(item, Contributions(gs, sel))
  {
    var cs := Contributions(gs, sel);
    if !Mentions(cs, item) {
      NeedForUnmentioned(item, cs);
    }
  }

  lemma {:induction false} NeedForUnmentioned(item: string, cs: seq<Contribution>)
    requires !Mentions(cs, item)
    ensures NeedFor(item, cs) == 0 && SourcesFor(item, cs) == []
  {
    if cs != [] {
      forall k | 0 <= k < |cs[1..]| ensures cs[1..][k].item != item {
        assert cs[1..][k] == cs[k + 1];
      }
      NeedForUnmentioned(item, cs[1..]);
    }
  }

  /** Entries none of which names `item` add nothing for it. */
  lemma EntriesWithout(groupName: string, memberName: string, es: seq<Entry>, item: string)
    requires forall k :: 0 <= k < |es| ==> es[k].name != item
    ensures !Mentions(EntryContributions(groupName, memberName, es), item)
    ensures NeedFor(item, EntryContributions(groupName, memberName, es)) == 0
    ensures SourcesFor(item, EntryContributions(groupName, memberName, es)) == []
  {
    NeedForUnmentioned(item, EntryContributions(groupName, memberName, es));
  }

  /** A leading entry adds its count and one record when it names `item`,
      and nothing otherwise. */
  lemma EntriesCons(groupName: string, memberName: string, e: Entry, es: seq<Entry>, item: string)
    ensures NeedFor(item, EntryContributions(groupName, memberName, [e] + es))
      == (if e.name == item then EntryCount(e) else 0) + NeedFor(item, EntryContributions(groupName, memberName, es))
    ensures SourcesFor(item, EntryContributions(groupName, memberName, [e] + es))
      == (if e.name == item then [SourceRecord(groupName, memberName, EntryCount(e))] else [])
         + SourcesFor(item, EntryContributions(groupName, memberName, es))
    ensures e.name == item ==> Mentions(EntryContributions(groupName, memberName, [e] + es), item)
  {
    assert ([e] + es)[1..] == es;
    var cs := EntryContributions(groupName, memberName, [e] + es);
    assert cs[0] == EntryContribution(groupName, memberName, e);
  }

  // ---------------------------------------------------------------------------
  // Properties of the aggregate.

  /** The need of an item is the sum of the counts of its source records, and
      there is one record per contribution asking for it. */
  lemma {:induction false} NeedIsSumOfSources(item: string, cs: seq<Contribution>)
    ensures NeedFor(item, cs) == SumCounts(SourcesFor(item, cs))
  {
    if cs != [] {
      NeedIsSumOfSources(item, cs[1..]);
      SumCountsAppend((if cs[0].item == item then [cs[0].source] else []), SourcesFor(item, cs[1..]));
    }
  }

  lemma {:induction false} SumCountsAppend(a: seq<SourceRecord>, b: seq<SourceRecord>)
    ensures SumCounts(a + b) == SumCounts(a) + SumCounts(b)
  {
    if a == [] {
      assert a + b == b;
    } else {
      assert (a + b)[1..] == a[1..] + b;
      SumCountsAppend(a[1..], b);
    }
  }

  lemma {:induction false} NeedForAppend(item: string, a: seq<Contribution>, b: seq<Contribution>)
    ensures NeedFor(item, a + b) == NeedFor(item, a) + NeedFor(item, b)
  {
    if a == [] {
      assert a + b == b;
    } else {
      assert (a + b)[0] == a[0];
      assert (a + b)[1..] == a[1..] + b;
      NeedForAppend(item, a[1..], b);
    }
  }

  /** `c` is the contribution of entry `k` of member `i` of group `g`, and
      that member is selected. */
  ghost predicate ComesFrom(gs: seq<Group>, sel: set<string>, c: Contribution, g: int, i: int, k: int)
  {
    && 0 <= g < |gs| && 0 <= i < |gs[g].members| && 0 <= k < |gs[g].members[i].items|
    && gs[g].members[i].id in sel
    && c == EntryContribution(gs[g].name, gs[g].members[i].name, gs[g].members[i].items[k])
  }

  lemma {:induction false} MemberContributionsOrigin(groupName: string, ms: seq<Member>, sel: set<string>, c: Contribution)
    ensures c in MemberContributions(groupName, ms, sel) <==>
      exists i, k :: 0 <= i < |ms| && ms[i].id in sel && 0 <= k < |ms[i].items|
        && c == EntryContribution(groupName, ms[i].name, ms[i].items[k])
  {
    if ms != [] {
      MemberContributionsOrigin(groupName, ms[1..], sel, c);
      var head := MemberContribution(groupName, ms[0], sel);
      assert c in MemberContributions(groupName, ms, sel) <==> c in head || c in MemberContributions(groupName, ms[1..], sel);
      if exists i, k :: 0 <= i < |ms| && ms[i].id in sel && 0 <= k < |ms[i].items|
          && c == EntryContribution(groupName, ms[i].name, ms[i].items[k]) {
        var i, k :| 0 <= i < |ms| && ms[i].id in sel && 0 <= k < |ms[i].items|
          && c == EntryContribution(groupName, ms[i].name, ms[i].items[k]);
        if i == 0 {
          assert head[k] == c;
        } else {
          assert ms[1..][i - 1] == ms[i];
        }
      }
      if c in head {
        var k :| 0 <= k < |head| && head[k] == c;
        assert c == EntryContribution(groupName, ms[0].name, ms[0].items[k]);
      }
      if c in MemberContributions(groupName, ms[1..], sel) {
        var i, k :| 0 <= i < |ms[1..]| && ms[1..][i].id in sel && 0 <= k < |ms[1..][i].items|
          && c == EntryContribution(groupName, ms[1..][i].name, ms[1..][i].items[k]);
        assert ms[i + 1] == ms[1..][i];
      }
    }
  }

  /** A contribution is in the aggregated list exactly when it is the
      contribution of some entry of some selected member: unselected members
      add nothing, and every entry of a selected member adds its record
      (including the zero-count quality entries). */
  lemma {:induction false} ContributionOrigin(gs: seq<Group>, sel: set<string>, c: Contribution)
    ensures c in Contributions(gs, sel) <==> exists g, i, k :: ComesFrom(gs, sel, c, g, i, k)
  {
    if gs != [] {
      ContributionOrigin(gs[1..], sel, c);
      MemberContributionsOrigin(gs[0].name, gs[0].members, sel, c);
      if exists g, i, k :: ComesFrom(gs, sel, c, g, i, k) {
        var g, i, k :| ComesFrom(gs, sel, c, g, i, k);
        if g != 0 {
          assert ComesFrom(gs[1..], sel, c, g - 1, i, k);
        }
      }
      if exists g, i, k :: ComesFrom(gs[1..], sel, c, g, i, k) {
        var g, i, k :| ComesFrom(gs[1..], sel, c, g, i, k);
        assert ComesFrom(gs, sel, c, g + 1, i, k);
      }
      if c in MemberContributions(gs[0].name, gs[0].members, sel) {
        var i, k :| 0 <= i < |gs[0].members| && gs[0].members[i].id in sel && 0 <= k < |gs[0].members[i].items|
          && c == EntryContribution(gs[0].name, gs[0].members[i].name, gs[0].members[i].items[k]);
        assert ComesFrom(gs, sel, c, 0, i, k);
      }
    }
  }

  lemma {:induction false} MemberSelectionAdditive(groupName: string, ms: seq<Member>, sel: set<string>, id: string, item: string)
    requires id !in sel
    ensures NeedFor(item, MemberContributions(groupName, ms, sel + {id}))
      == NeedFor(item, MemberContributions(groupName, ms, sel)) + NeedFor(item, MemberContributions(groupName, ms, {id}))
  {
    if ms != [] {
      MemberSelectionAdditive(groupName, ms[1..], sel, id, item);
      NeedForAppend(item, MemberContribution(groupName, ms[0], sel + {id}), MemberContributions(groupName, ms[1..], sel + {id}));
      NeedForAppend(item, MemberContribution(groupName, ms[0], sel), MemberContributions(groupName, ms[1..], sel));
      NeedForAppend(item, MemberContribution(groupName, ms[0], {id}), MemberContributions(groupName, ms[1..], {id}));
    }
  }

  /** Checking one more id adds exactly the need that id alone selects, for
      every item; unchecking it takes exactly that away. */
  lemma {:induction false} SelectionAdditive(gs: seq<Group>, sel: set<string>, id: string, item: string)
    requires id !in sel
    ensures NeedFor(item, Contributions(gs, sel + {id}))
      == NeedFor(item, Contributions(gs, sel)) + NeedFor(item, Contributions(gs, {id}))
  {
    if gs != [] {
      SelectionAdditive(gs[1..], sel, id, item);
      MemberSelectionAdditive(gs[0].name, gs[0].members, sel, id, item);
      NeedForAppend(item, MemberContributions(gs[0].name, gs[0].members, sel + {id}), Contributions(gs[1..], sel + {id}));
      NeedForAppend(item, MemberContributions(gs[0].name, gs[0].members, sel), Contributions(gs[1..], sel));
      NeedForAppend(item, MemberContributions(gs[0].name, gs[0].members, {id}), Contributions(gs[1..], {id}));
    }
  }

  lemma {:induction false} MemberContributionsNone(groupName: string, ms: seq<Member>, sel: set<string>)
    requires forall i :: 0 <= i < |ms| ==> ms[i].id !in sel
    ensures MemberContributions(groupName, ms, sel) == []
  {
    if ms != [] {
      MemberContributionsNone(groupName, ms[1..], sel);
    }
  }

  lemma {:induction false} MemberContributionsSingle(groupName: string, ms: seq<Member>, i: int)
    requires DistinctIds(ms) && 0 <= i < |ms|
    ensures MemberContributions(groupName, ms, {ms[i].id}) == EntryContributions(groupName, ms[i].name, ms[i].items)
  {
    var id := ms[i].id;
    if i == 0 {
      MemberContributionsNone(groupName, ms[1..], {id});
    } else {
      assert ms[1..][i - 1] == ms[i];
      MemberContributionsSingle(groupName, ms[1..], i - 1);
    }
  }

  lemma {:induction false} UniqueIdsSplit(gs: seq<Group>)
    requires gs != [] && UniqueIds(gs)
    ensures DistinctIds(gs[0].members) && UniqueIds(gs[1..])
    ensures forall i, j :: 0 <= i < |gs[0].members| && 0 <= j < |AllMembers(gs[1..])| ==>
      gs[0].members[i].id != AllMembers(gs[1..])[j].id
  {
    var a, b := gs[0].members, AllMembers(gs[1..]);
    assert AllMembers(gs) == a + b;
    forall i, j | 0 <= i < j < |a| ensures a[i].id != a[j].id {
      assert (a + b)[i] == a[i] && (a + b)[j] == a[j];
    }
    forall i, j | 0 <= i < j < |b| ensures b[i].id != b[j].id {
      assert (a + b)[|a| + i] == b[i] && (a + b)[|a| + j] == b[j];
    }
    forall i, j | 0 <= i < |a| && 0 <= j < |b| ensures a[i].id != b[j].id {
      assert (a + b)[i] == a[i] && (a + b)[|a| + j] == b[j];
    }
  }

  lemma {:induction false} ContributionsNone(gs: seq<Group>, sel: set<string>)
    requires forall j :: 0 <= j < |AllMembers(gs)| ==> AllMembers(gs)[j].id !in sel
    ensures Contributions(gs, sel) == []
  {
    if gs != [] {
      var a, b := gs[0].members, AllMembers(gs[1..]);
      assert AllMembers(gs) == a + b;
      forall i | 0 <= i < |a| ensures a[i].id !in sel {
        assert (a + b)[i] == a[i];
      }
      forall j | 0 <= j < |b| ensures b[j].id !in sel {
        assert (a + b)[|a| + j] == b[j];
      }
      MemberContributionsNone(gs[0].name, a, sel);
      ContributionsNone(gs[1..], sel);
    }
  }

  /** With ids unique across the catalog, selecting one id brings in exactly
      the entries of the one member carrying it. */
  lemma {:induction false} SingleSelection(gs: seq<Group>, g: int, i: int)
    requires UniqueIds(gs)
    requires 0 <= g < |gs| && 0 <= i < |gs[g].members|
    ensures Contributions(gs, {gs[g].members[i].id})
      == EntryContributions(gs[g].name, gs[g].members[i].name, gs[g].members[i].items)
  {
    var id := gs[g].members[i].id;
    UniqueIdsSplit(gs);
    if g == 0 {
      MemberContributionsSingle(gs[0].name, gs[0].members, i);
      ContributionsNone(gs[1..], {id});
    } else {
      assert gs[1..][g - 1] == gs[g];
      SingleSelection(gs[1..], g - 1, i);
      var m := gs[g].members[i];
      assert m in AllMembers(gs[1..]) by { AllMembersHas(gs[1..], g - 1, i); }
      MemberContributionsNone(gs[0].name, gs[0].members, {id});
    }
  }

  lemma {:induction false} AllMembersHas(gs: seq<Group>, g: int, i: int)
    requires 0 <= g < |gs| && 0 <= i < |gs[g].members|
    ensures gs[g].members[i] in AllMembers(gs)
  {
    if g == 0 {
      assert AllMembers(gs)[i] == gs[0].members[i];
    } else {
      assert gs[1..][g - 1] == gs[g];
      AllMembersHas(gs[1..], g - 1, i);
    }
  }

  lemma {:induction false} MemberContributionsAgree(groupName: string, ms: seq<Member>, s1: set<string>, s2: set<string>)
    requires forall i :: 0 <= i < |ms| ==> (ms[i].id in s1 <==> ms[i].id in s2)
    ensures MemberContributions(groupName, ms, s1) == MemberContributions(groupName, ms, s2)
  {
    if ms != [] {
      MemberContributionsAgree(groupName, ms[1..], s1, s2);
    }
  }

  lemma {:induction false} ContributionsAgree(gs: seq<Group>, s1: set<string>, s2: set<string>)
    requires forall g, i :: 0 <= g < |gs| && 0 <= i < |gs[g].members| ==>
      (gs[g].members[i].id in s1 <==> gs[g].members[i].id in s2)
    ensures Contributions(gs, s1) == Contributions(gs, s2)
  {
    if gs != [] {
      MemberContributionsAgree(gs[0].name, gs[0].members, s1, s2);
      assert forall g :: 0 < g < |gs| ==> gs[1..][g - 1] == gs[g];
      ContributionsAgree(gs[1..], s1, s2);
    }
  }

  /** Ids that name no member of the catalog do not change the aggregate. */
  lemma OnlyCatalogIdsMatter(gs: seq<Group>, sel: set<string>)
    ensures Contributions(gs, sel) == Contributions(gs, sel * CollectIds(gs))
  {
    var ids := CollectIds(gs);
    forall g, i | 0 <= g < |gs| && 0 <= i < |gs[g].members| ensures gs[g].members[i].id in ids {
      assert IsMemberId(gs, gs[g].members[i].id);
    }
    ContributionsAgree(gs, sel, sel * ids);
  }

  /** With unique ids, selecting the single id of member `i` of group `g`
      gives each item exactly the need and the sources of that member's own
      entries. */
  lemma SingleSelectionTally(gs: seq<Group>, g: int, i: int, item: string)
    requires UniqueIds(gs)
    requires 0 <= g < |gs| && 0 <= i < |gs[g].members|
    ensures NeedOf(Aggregate(gs, {gs[g].members[i].id}), item)
      == NeedFor(item, EntryContributions(gs[g].name, gs[g].members[i].name, gs[g].members[i].items))
    ensures Mentions(EntryContributions(gs[g].name, gs[g].members[i].name, gs[g].members[i].items), item) ==>
      item in Aggregate(gs, {gs[g].members[i].id}).need &&
      item in Aggregate(gs, {gs[g].members[i].id}).sources &&
      Aggregate(gs, {gs[g].members[i].id}).sources[item]
        == SourcesFor(item, EntryContributions(gs[g].name, gs[g].members[i].name, gs[g].members[i].items))
  {
    SingleSelection(gs, g, i);
    AggregateNeedOf(gs, {gs[g].members[i].id}, item);
  }
}

=== FILE: catalog.dfy ===
/** The static catalog the tracker folds over: the demand-type columns, the
    donation bundles grouped by room, and the quests grouped by category, as
    defined in scripts/data.js. Entry notes are display text and are not
    carried; remix bundle definitions are never read by the tracker. */
module Catalog {
  import opened Util

  /** A quality-tier requirement (`quality` and `qCount` of a data entry). */
  datatype QualityReq = QualityReq(tier: string, qCount: int)

  /** One demand entry: an item name and an optional plain `count`; a
      quality-only entry has no `count` at all. */
  datatype Entry = Entry(name: string, count: Option<int>, quality: Option<QualityReq>)

  /** A donation bundle or a quest: its id, its display name and its entries. */
  datatype Member = Member(id: string, name: string, items: seq<Entry>)

  /** A named group of bundles (a room) or of quests (a quest category). */
  datatype Group = Group(name: string, members: seq<Member>)

  /** An entry written `{ name, count }`. */
  function Plain(name: string, count: int): Entry
  {
    Entry(name, Some(count), None)
  }

  /** An entry written `{ name, quality, qCount }`, without a `count`. */
  function Tiered(name: string, tier: string, qCount: int): Entry
  {
    Entry(name, None, Some(QualityReq(tier, qCount)))
  }

  /** The two dynamic demand types whose needs are derived from selections. */
  const Donation: string := "献祭"
  const Quest: string := "任务"

  /** The demand-type columns, in table order (data.js:4-13). */
  const DemandTypes: seq<string> := [Donation, Quest, "菜谱", "制造", "出货", "混合栽培", "图腾柱"]

  lemma DemandTypesShape()
    ensures |DemandTypes| == 7 && NoDuplicates(DemandTypes)
    ensures Donation in DemandTypes && Quest in DemandTypes && Donation != Quest
  {
  }

  /** 工艺室 (data.js:40) */
  const CraftsRoom: Group := Group("工艺室", [
    Member("cr_spring_foraging", "春季采集收集包", [
      Plain("野山葵", 1),
      Plain("黄水仙", 1),
      Plain("韭葱", 1),
      Plain("蒲公英", 1)
    ]),
    Member("cr_summer_foraging", "夏季采集收集包", [
      Plain("葡萄", 1),
      Plain("香味浆果", 1),
      Plain("甜豌豆", 1)
    ]),
    Member("cr_fall_foraging", "秋季采集收集包", [
      Plain("普通蘑菇", 1),
      Plain("野梅", 1),
      Plain("榛子", 1),
      Plain("黑莓", 1)
    ]),
    Member("cr_winter_foraging", "冬季采集收集包", [
      Plain("冬根", 1),
      Plain("水晶果", 1),
      Plain("雪山药", 1),
      Plain("番红花", 1)
    ]),
    Member("cr_construction", "建筑收集包", [
      Plain("木材", 99),
      Plain("木材", 99),
      Plain("石头", 99),
      Plain("硬木", 10)
    ]),
    Member("cr_exotic_foraging", "异国情调采集收集包", [
      Plain("椰子", 1),
      Plain("仙人掌果子", 1),
      Plain("山洞萝卜", 1),
      Plain("红蘑菇", 1),
      Plain("紫蘑菇", 1),
      Plain("枫糖浆", 1),
      Plain("橡树树脂", 1),
      Plain("松焦油", 1),
      Plain("羊肚菌", 1)
    ])
  ])

  /** 茶水间 (data.js:110) */
  const Pantry: Group := Group("茶水间", [
    Member("p_spring_crops", "春季作物收集包", [
      Plain("防风草", 1),
      Plain("青豆", 1),
      Plain("花椰菜", 1),
      Plain("土豆", 1)
    ]),
    Member("p_summer_crops", "夏季作物收集包", [
      Plain("西红柿", 1),
      Plain("辣椒", 1),
      Plain("蓝莓", 1),
      Plain("甜瓜", 1)
    ]),
    Member("p_fall_crops", "秋季作物收集包", [
      Plain("玉米", 1),
      Plain("茄子", 1),
      Plain("南瓜", 1),
      Plain("山药", 1)
    ]),
    Member("p_quality_crops", "高品质作物收集包", [
      Tiered("防风草", "gold", 5),
      Tiered("甜瓜", "gold", 5),
      Tiered("南瓜", "gold", 5),
      Tiered("玉米", "gold", 5)
    ]),
    Member("p_animal", "动物收集包", [
      Plain("大壶牛奶", 1),
      Plain("棕色大鸡蛋", 1),
      Plain("白色大鸡蛋", 1),
      Plain("大瓶羊奶", 1),
      Plain("动物毛", 1),
      Plain("鸭蛋", 1)
    ]),
    Member("p_artisan", "工匠收集包", [
      Plain("松焦油", 1),
      Plain("布料", 1),
      Plain("山羊奶酪", 1),
      Plain("羊奶", 1),
      Plain("奶酪", 1),
      Plain("牛奶", 1),
      Plain("蜂蜜", 1),
      Plain("果酱", 1),
      Plain("苹果", 1),
      Plain("杏子", 1),
      Plain("橙子", 1),
      Plain("桃子", 1),
      Plain("石榴", 1),
      Plain("樱桃", 1)
    ])
  ])

  /** 鱼缸 (data.js:192) */
  const FishTank: Group := Group("鱼缸", [
    Member("ft_river", "河鱼收集包", [
      Plain("太阳鱼", 1),
      Plain("鲶鱼", 1),
      Plain("西鲱", 1),
      Plain("虎纹鳟鱼", 1)
    ]),
    Member("ft_lake", "湖鱼收集包", [
      Plain("大嘴鲈鱼", 1),
      Plain("鲤鱼", 1),
      Plain("大头鱼", 1),
      Plain("鲟鱼", 1)
    ]),
    Member("ft_ocean", "海鱼收集包", [
      Plain("沙丁鱼", 1),
      Plain("金枪鱼", 1),
      Plain("红鲷鱼", 1),
      Plain("罗非鱼", 1)
    ]),
    Member("ft_night", "夜间垂钓收集包", [
      Plain("大眼鱼", 1),
      Plain("鲷鱼", 1),
      Plain("鳗鱼", 1)
    ]),
    Member("ft_crab_pot", "蟹笼收集包", [
      Plain("龙虾", 1),
      Plain("小龙虾", 1),
      Plain("螃蟹", 1),
      Plain("鸟蛤", 1),
      Plain("蛤", 1),
      Plain("虾", 1),
      Plain("蜗牛", 1),
      Plain("玉黍螺", 1),
      Plain("牡蛎", 1),
      Plain("蚌", 1)
    ]),
    Member("ft_specialty", "特色鱼类收集包", [
      Plain("河豚", 1),
      Plain("鬼鱼", 1),
      Plain("沙鱼", 1),
      Plain("木跃鱼", 1)
    ])
  ])

  /** 锅炉房 (data.js:263) */
  const BoilerRoom: Group := Group("锅炉房", [
    Member("br_blacksmith", "铁匠的收集包", [
      Plain("铜锭", 1),
      Plain("铁锭", 1),
      Plain("金锭", 1)
    ]),
    Member("br_geologist", "地理学家的收集包", [
      Plain("石英", 1),
      Plain("地晶", 1),
      Plain("泪晶", 1),
      Plain("火水晶", 1)
    ]),
    Member("br_adventurer", "冒险家的收集包", [
      Plain("史莱姆泥", 99),
      Plain("蝙蝠翅膀", 10),
      Plain("太阳精华", 1),
      Plain("虚空精华", 1)
    ])
  ])

  /** 布告栏 (data.js:298) */
  const BulletinBoard: Group := Group("布告栏", [
    Member("bb_chef", "厨师收集包", [
      Plain("枫糖浆", 1),
      Plain("蕨菜", 1),
      Plain("松露", 1),
      Plain("虞美人花", 1),
      Plain("生鱼寿司", 1),
      Plain("海草", 1),
      Plain("大米", 1),
      Plain("任意鱼", 1),
      Plain("煎鸡蛋", 1),
      Plain("蛋（白色）", 1)
    ]),
    Member("bb_dye", "染料收集包", [
      Plain("红蘑菇", 1),
      Plain("海胆", 1),
      Plain("向日葵", 1),
      Plain("鸭毛", 1),
      Plain("海蓝宝石", 1),
      Plain("红叶卷心菜", 1)
    ]),
    Member("bb_field_research", "土地研究收集包", [
      Plain("紫蘑菇", 1),
      Plain("鹦鹉螺", 1),
      Plain("鲢鱼", 1),
      Plain("冰封晶球", 1)
    ]),
    Member("bb_fodder", "饲料收集包", [
      Plain("小麦", 10),
      Plain("干草", 10),
      Plain("苹果", 3)
    ]),
    Member("bb_enchanter", "魔法师收集包", [
      Plain("橡树树脂", 1),
      Plain("果酒", 1),
      Plain("兔子的脚", 1),
      Plain("石榴", 1)
    ])
  ])

  /** 废弃 Joja 超市 (data.js:366) */
  const JojaMart: Group := Group("废弃 Joja 超市", [
    Member("missing_bundle", "失踪的收集包", [
      Tiered("果酒", "silver", 1),
      Plain("恐龙蛋黄酱", 1),
      Plain("恐龙蛋", 1),
      Plain("五彩碎片", 1),
      Tiered("上古水果", "gold", 5),
      Tiered("虚空鲑鱼", "gold", 1),
      Plain("鱼籽酱", 1),
      Plain("鲟鱼鱼籽", 1)
    ])
  ])

  /** 剧情任务第一年 (data.js:761) */
  const StoryYearOne: Group := Group("剧情任务第一年", [
    Member("s1_smdq", "神秘的齐", [
      Plain("电池组", 1),
      Plain("彩虹贝壳", 1),
      Plain("甜菜", 10),
      Plain("太阳精华", 1)
    ]),
    Member("s1_qddqq", "乔迪的请求", [
      Plain("花椰菜", 1)
    ]),
    Member("s1_pmkl", "潘姆渴了", [
      Plain("淡啤酒", 1),
      Plain("啤酒花", 1)
    ]),
    Member("s1_zwyj", "作物研究", [
      Plain("甜瓜", 1)
    ]),
    Member("s1_xgly", "膝盖疗养", [
      Plain("辣椒", 1)
    ]),
    Member("s1_tnhx", "讨牛欢心", [
      Plain("苋菜", 1)
    ]),
    Member("s1_dkng", "雕刻南瓜", [
      Plain("南瓜", 1)
    ]),
    Member("s1_qgzt", "奇怪纸条", [
      Plain("枫糖浆", 1)
    ]),
    Member("s1_btyy", "捕条鱿鱼", [
      Plain("鱿鱼", 1)
    ]),
    Member("s1_kltdnl", "克林特的努力", [
      Plain("紫水晶", 1)
    ]),
    Member("s1_hasj", "黑暗试剂", [
      Plain("虚空精华", 1)
    ]),
    Member("s1_kltdxm", "克林特的小忙", [
      Plain("铁锭", 1)
    ]),
    Member("s1_lbdqq", "罗宾的请求", [
      Plain("硬木", 10)
    ]),
    Member("s1_hyt", "烩鱼汤", [
      Plain("青花鱼", 1)
    ]),
    Member("s1_mndqq", "玛妮的请求", [
      Plain("山洞萝卜", 1)
    ]),
    Member("s1_sgy", "砂锅鱼", [
      Plain("大嘴鲈鱼", 1)
    ]),
    Member("s1_dsz", "大树桩", [
      Plain("硬木", 100)
    ])
  ])

  /** 剧情任务第二年+ (data.js:893) */
  const StoryYearTwo: Group := Group("剧情任务第二年+", [
    Member("s2_xxsg", "新鲜水果", [
      Plain("杏子", 1)
    ]),
    Member("s2_nndlw", "奶奶的礼物", [
      Plain("韭葱", 1)
    ]),
    Member("s2_paedbg", "皮埃尔的布告", [
      Plain("生鱼片", 1)
    ]),
    Member("s2_scdc", "水产调查", [
      Plain("河豚", 1)
    ]),
    Member("s2_sbdxx", "士兵的星星", [
      Plain("杨桃", 1)
    ]),
    Member("s2_zzdxq", "镇长的需求", [
      Plain("松露油", 1),
      Plain("松露", 1)
    ]),
    Member("s2_zjlx", "征集：龙虾", [
      Plain("龙虾", 1)
    ]),
    Member("s2_pmxydc", "潘姆需要电池", [
      Plain("电池组", 1)
    ]),
    Member("s2_llfz", "力量法杖", [
      Plain("铱锭", 1)
    ]),
    Member("s2_blscdxy", "捕捞蛇齿单线鱼", [
      Plain("蛇齿单线鱼", 1)
    ]),
    Member("s2_yyyp", "异域饮品", [
      Plain("椰子", 1)
    ])
  ])

  /** 特别任务 (data.js:980) */
  const SpecialQuests: Group := Group("特别任务", [
    Member("spe_bsnl", "宝石能量", [
      Plain("红宝石", 1),
      Plain("黄水晶", 1),
      Plain("绿宝石", 1),
      Plain("翡翠", 1),
      Plain("紫水晶", 1)
    ]),
    Member("spe_lj", "烈酒", [
      Plain("土豆", 12)
    ])
  ])

  /** 姜岛任务 (data.js:1007) */
  const GingerIsland: Group := Group("姜岛任务", [
    Member("gin_bsn", "宝石鸟", [
      Plain("红宝石", 1),
      Plain("黄水晶", 1),
      Plain("绿宝石", 1),
      Plain("海蓝宝石", 1),
      Plain("紫水晶", 1)
    ]),
    Member("gin_mry", "美人鱼解密", [
      Plain("长笛块", 5)
    ]),
    Member("gin_dxxjt", "大猩猩祭坛", [
      Plain("香蕉", 1)
    ])
  ])

  /** DONATION_BUNDLE_GROUPS (data.js:37-398). */
  const DonationGroups: seq<Group> := [CraftsRoom, Pantry, FishTank, BoilerRoom, BulletinBoard, JojaMart]

  /** QUEST_GROUPS (data.js:758-1039). */
  const QuestGroups: seq<Group> := [StoryYearOne, StoryYearTwo, SpecialQuests, GingerIsland]

  /** `id` names some bundle or quest of some group in `gs`. */
  ghost predicate IsMemberId(gs: seq<Group>, id: string)
  {
    exists g, i :: 0 <= g < |gs| && 0 <= i < |gs[g].members| && gs[g].members[i].id == id
  }

  /** The ids of `ms`, collected one by one into a set. */
  function MemberIdSet(ms: seq<Member>): (ids: set<string>)
    ensures forall id :: id in ids <==> exists i :: 0 <= i < |ms| && ms[i].id == id
  {
    if ms == [] then {}
    else
      var rest := MemberIdSet(ms[1..]);
      assert forall i :: 0 < i < |ms| ==> ms[i] == ms[1..][i - 1];
      {ms[0].id} + rest
  }

  /** The ids of every member of every group, collected in group order. */
  function CollectIds(gs: seq<Group>): (ids: set<string>)
    ensures forall id :: id in ids <==> IsMemberId(gs, id)
  {
    if gs == [] then {}
    else
      var rest := CollectIds(gs[1..]);
      assert forall g :: 0 < g < |gs| ==> gs[g] == gs[1..][g - 1];
      assert forall id :: IsMemberId(gs[1..], id) ==> IsMemberId(gs, id) by {
        forall id | IsMemberId(gs[1..], id) ensures IsMemberId(gs, id) {
          var g, i :| 0 <= g < |gs[1..]| && 0 <= i < |gs[1..][g].members| && gs[1..][g].members[i].id == id;
          assert gs[g + 1].members[i].id == id;
        }
      }
      MemberIdSet(gs[0].members) + rest
  }

  /** The effective `getDefaultSelectedQuestIds` (data.js:1056-1060): every
      quest of every group starts selected. */
  function DefaultSelectedQuestIds(): (ids: set<string>)
    ensures forall id :: id in ids <==> IsMemberId(QuestGroups, id)
  {
    CollectIds(QuestGroups)
  }

  /** Every bundle or quest of every group, in group order. */
  function AllMembers(gs: seq<Group>): seq<Member>
  {
    if gs == [] then [] else gs[0].members + AllMembers(gs[1..])
  }

  /** No two members of `ms` share an id. */
  predicate DistinctIds(ms: seq<Member>)
  {
    forall i, j :: 0 <= i < j < |ms| ==> ms[i].id != ms[j].id
  }

  /** No member of `a` shares an id with a member of `b`. */
  predicate DisjointIds(a: seq<Member>, b: seq<Member>)
  {
    forall i, j :: 0 <= i < |a| && 0 <= j < |b| ==> a[i].id != b[j].id
  }

  /** Ids are unique across the whole catalog `gs`. */
  predicate UniqueIds(gs: seq<Group>)
  {
    DistinctIds(AllMembers(gs))
  }

  lemma DistinctIdsAppend(a: seq<Member>, b: seq<Member>)
    requires DistinctIds(a) && DistinctIds(b) && DisjointIds(a, b)
    ensures DistinctIds(a + b)
  {
    var c := a + b;
    forall i, j | 0 <= i < j < |c| ensures c[i].id != c[j].id {
      if j < |a| {
      } else if i >= |a| {
        assert c[i] == b[i - |a|] && c[j] == b[j - |a|];
      } else {
        assert c[j] == b[j - |a|];
      }
    }
  }

  lemma DisjointIdsAppend(a: seq<Member>, b: seq<Member>, c: seq<Member>)
    requires DisjointIds(a, b) && DisjointIds(a, c)
    ensures DisjointIds(a, b + c)
  {
    forall i, j | 0 <= i < |a| && 0 <= j < |b + c| ensures a[i].id != (b + c)[j].id {
      if j >= |b| {
        assert (b + c)[j] == c[j - |b|];
      }
    }
  }
}

=== FILE: catalog_facts.dfy ===
/** Facts about the concrete catalog of scripts/data.js. */
module CatalogFacts {
  import opened Util
  import opened Catalog

  lemma DonationGroupsFlatten()
    ensures AllMembers(DonationGroups) == CraftsRoom.members + (Pantry.members + (FishTank.members + (BoilerRoom.members + (BulletinBoard.members + (JojaMart.members)))))
  {
    assert [JojaMart][1..] == [];
    assert AllMembers([JojaMart]) == JojaMart.members;
    assert [BulletinBoard, JojaMart][1..] == [JojaMart];
    assert AllMembers([BulletinBoard, JojaMart]) == BulletinBoard.members + (JojaMart.members);
    assert [BoilerRoom, BulletinBoard, JojaMart][1..] == [BulletinBoard, JojaMart];
    assert AllMembers([BoilerRoom, BulletinBoard, JojaMart]) == BoilerRoom.members + (BulletinBoard.members + (JojaMart.members));
    assert [FishTank, BoilerRoom, BulletinBoard, JojaMart][1..] == [BoilerRoom, BulletinBoard, JojaMart];
    assert AllMembers([FishTank, BoilerRoom, BulletinBoard, JojaMart]) == FishTank.members + (BoilerRoom.members + (BulletinBoard.members + (JojaMart.members)));
    assert [Pantry, FishTank, BoilerRoom, BulletinBoard, JojaMart][1..] == [FishTank, BoilerRoom, BulletinBoard, JojaMart];
    assert AllMembers([Pantry, FishTank, BoilerRoom, BulletinBoard, JojaMart]) == Pantry.members + (FishTank.members + (BoilerRoom.members + (BulletinBoard.members + (JojaMart.members))));
    assert [CraftsRoom, Pantry, FishTank, BoilerRoom, BulletinBoard, JojaMart][1..] == [Pantry, FishTank, BoilerRoom, BulletinBoard, JojaMart];
    assert AllMembers([CraftsRoom, Pantry, FishTank, BoilerRoom, BulletinBoard, JojaMart]) == CraftsRoom.members + (Pantry.members + (FishTank.members + (BoilerRoom.members + (BulletinBoard.members + (JojaMart.members)))));
  }

  lemma CraftsRoomIdsDistinct()
    ensures DistinctIds(CraftsRoom.members)
  {
  }

  lemma PantryIdsDistinct()
    ensures DistinctIds(Pantry.members)
  {
  }

  lemma FishTankIdsDistinct()
    ensures DistinctIds(FishTank.members)
  {
  }

  lemma BoilerRoomIdsDistinct()
    ensures DistinctIds(BoilerRoom.members)
  {
  }

  lemma BulletinBoardIdsDistinct()
    ensures DistinctIds(BulletinBoard.members)
  {
  }

  lemma JojaMartIdsDistinct()
    ensures DistinctIds(JojaMart.members)
  {
  }

  lemma CraftsRoomDisjointJojaMart()
    ensures DisjointIds(CraftsRoom.members, JojaMart.members)
  {
  }

  lemma CraftsRoomDisjointBulletinBoard()
    ensures DisjointIds(CraftsRoom.members, BulletinBoard.members)
  {
  }

  lemma CraftsRoomDisjointBoilerRoom()
    ensures DisjointIds(CraftsRoom.members, BoilerRoom.members)
  {
  }

  lemma CraftsRoomDisjointFishTank()
    ensures DisjointIds(CraftsRoom.members, FishTank.members)
  {
  }

  lemma CraftsRoomDisjointPantry()
    ensures DisjointIds(CraftsRoom.members, Pantry.members)
  {
  }

  lemma PantryDisjointJojaMart()
    ensures DisjointIds(Pantry.members, JojaMart.members)
  {
  }

  lemma PantryDisjointBulletinBoard()
    ensures DisjointIds(Pantry.members, BulletinBoard.members)
  {
  }

  lemma PantryDisjointBoilerRoom()
    ensures DisjointIds(Pantry.members, BoilerRoom.members)
  {
  }

  lemma PantryDisjointFishTank()
    ensures DisjointIds(Pantry.members, FishTank.members)
  {
  }

  lemma FishTankDisjointJojaMart()
    ensures DisjointIds(FishTank.members, JojaMart.members)
  {
  }

  lemma FishTankDisjointBulletinBoard()
    ensures DisjointIds(FishTank.members, BulletinBoard.members)
  {
  }

  lemma FishTankDisjointBoilerRoom()
    ensures DisjointIds(FishTank.members, BoilerRoom.members)
  {
  }

  lemma BoilerRoomDisjointJojaMart()
    ensures DisjointIds(BoilerRoom.members, JojaMart.members)
  {
  }

  lemma BoilerRoomDisjointBulletinBoard()
    ensures DisjointIds(BoilerRoom.members, BulletinBoard.members)
  {
  }

  lemma BulletinBoardDisjointJojaMart()
    ensures DisjointIds(BulletinBoard.members, JojaMart.members)
  {
  }

  lemma StoryYearOneDisjointGingerIsland()
    ensures DisjointIds(StoryYearOne.members, GingerIsland.members)
  {
  }

  lemma StoryYearOneDisjointSpecialQuests()
    ensures DisjointIds(StoryYearOne.members, SpecialQuests.members)
  {
  }

  lemma StoryYearOneDisjointStoryYearTwo()
    ensures DisjointIds(StoryYearOne.members, StoryYearTwo.members)
  {
  }

  lemma StoryYearTwoDisjointGingerIsland()
    ensures DisjointIds(StoryYearTwo.members, GingerIsland.members)
  {
  }

  lemma StoryYearTwoDisjointSpecialQuests()
    ensures DisjointIds(StoryYearTwo.members, SpecialQuests.members)
  {
  }

  lemma SpecialQuestsDisjointGingerIsland()
    ensures DisjointIds(SpecialQuests.members, GingerIsland.members)
  {
  }

  lemma CraftsRoomIdsDisjointFromLater()
    ensures DisjointIds(CraftsRoom.members, Pantry.members + (FishTank.members + (BoilerRoom.members + (BulletinBoard.members + (JojaMart.members)))))
  {
    CraftsRoomDisjointJojaMart();
    CraftsRoomDisjointBulletinBoard();
    DisjointIdsAppend(CraftsRoom.members, BulletinBoard.members, JojaMart.members);
    CraftsRoomDisjointBoilerRoom();
    DisjointIdsAppend(CraftsRoom.members, BoilerRoom.members, BulletinBoard.members + (JojaMart.members));
    CraftsRoomDisjointFishTank();
    DisjointIdsAppend(CraftsRoom.members, FishTank.members, BoilerRoom.members + (BulletinBoard.members + (JojaMart.members)));
    CraftsRoomDisjointPantry();
    DisjointIdsAppend(CraftsRoom.members, Pantry.members, FishTank.members + (BoilerRoom.members + (BulletinBoard.members + (JojaMart.members))));
  }

  lemma PantryIdsDisjointFromLater()
    ensures DisjointIds(Pantry.members, FishTank.members + (BoilerRoom.members + (BulletinBoard.members + (JojaMart.members))))
  {
    PantryDisjointJojaMart();
    PantryDisjointBulletinBoard();
    DisjointIdsAppend(Pantry.members, BulletinBoard.members, JojaMart.members);
    PantryDisjointBoilerRoom();
    DisjointIdsAppend(Pantry.members, BoilerRoom.members, BulletinBoard.members + (JojaMart.members));
    PantryDisjointFishTank();
    DisjointIdsAppend(Pantry.members, FishTank.members, BoilerRoom.members + (BulletinBoard.members + (JojaMart.members)));
  }

  lemma FishTankIdsDisjointFromLater()
    ensures DisjointIds(FishTank.members, BoilerRoom.members + (BulletinBoard.members + (JojaMart.members)))
  {
    FishTankDisjointJojaMart();
    FishTankDisjointBulletinBoard();
    DisjointIdsAppend(FishTank.members, BulletinBoard.members, JojaMart.members);
    FishTankDisjointBoilerRoom();
    DisjointIdsAppend(FishTank.members, BoilerRoom.members, BulletinBoard.members + (JojaMart.members));
  }

  lemma BoilerRoomIdsDisjointFromLater()
    ensures DisjointIds(BoilerRoom.members, BulletinBoard.members + (JojaMart.members))
  {
    BoilerRoomDisjointJojaMart();
    BoilerRoomDisjointBulletinBoard();
    DisjointIdsAppend(BoilerRoom.members, BulletinBoard.members, JojaMart.members);
  }

  lemma BulletinBoardIdsDisjointFromLater()
    ensures DisjointIds(BulletinBoard.members, JojaMart.members)
  {
    BulletinBoardDisjointJojaMart();
  }

  /** Ids are pairwise distinct across the whole catalog. */
  lemma DonationBundleIdsUnique()
    ensures UniqueIds(DonationGroups)
  {
    DonationGroupsFlatten();
    JojaMartIdsDistinct();
    BulletinBoardIdsDistinct();
    BulletinBoardIdsDisjointFromLater();
    DistinctIdsAppend(BulletinBoard.members, JojaMart.members);
    BoilerRoomIdsDistinct();
    BoilerRoomIdsDisjointFromLater();
    DistinctIdsAppend(BoilerRoom.members, BulletinBoard.members + (JojaMart.members));
    FishTankIdsDistinct();
    FishTankIdsDisjointFromLater();
    DistinctIdsAppend(FishTank.members, BoilerRoom.members + (BulletinBoard.members + (JojaMart.members)));
    PantryIdsDistinct();
    PantryIdsDisjointFromLater();
    DistinctIdsAppend(Pantry.members, FishTank.members + (BoilerRoom.members + (BulletinBoard.members + (JojaMart.members))));
    CraftsRoomIdsDistinct();
    CraftsRoomIdsDisjointFromLater();
    DistinctIdsAppend(CraftsRoom.members, Pantry.members + (FishTank.members + (BoilerRoom.members + (BulletinBoard.members + (JojaMart.members)))));
  }

  lemma QuestGroupsFlatten()
    ensures AllMembers(QuestGroups) == StoryYearOne.members + (StoryYearTwo.members + (SpecialQuests.members + (GingerIsland.members)))
  {
    assert [GingerIsland][1..] == [];
    assert AllMembers([GingerIsland]) == GingerIsland.members;
    assert [SpecialQuests, GingerIsland][1..] == [GingerIsland];
    assert AllMembers([SpecialQuests, GingerIsland]) == SpecialQuests.members + (GingerIsland.members);
    assert [StoryYearTwo, SpecialQuests, GingerIsland][1..] == [SpecialQuests, GingerIsland];
    assert AllMembers([StoryYearTwo, SpecialQuests, GingerIsland]) == StoryYearTwo.members + (SpecialQuests.members + (GingerIsland.members));
    assert [StoryYearOne, StoryYearTwo, SpecialQuests, GingerIsland][1..] == [StoryYearTwo, SpecialQuests, GingerIsland];
    assert AllMembers([StoryYearOne, StoryYearTwo, SpecialQuests, GingerIsland]) == StoryYearOne.members + (StoryYearTwo.members + (SpecialQuests.members + (GingerIsland.members)));
  }

  lemma StoryYearOneIdsDistinct()
    ensures DistinctIds(StoryYearOne.members)
  {
    var ms := StoryYearOne.members;
    forall i, j | 0 <= i < j < |ms| ensures ms[i].id != ms[j].id {
      if j < 8 {
      } else if i >= 8 {
      } else {
      }
    }
  }

  lemma StoryYearTwoIdsDistinct()
    ensures DistinctIds(StoryYearTwo.members)
  {
    var ms := StoryYearTwo.members;
    forall i, j | 0 <= i < j < |ms| ensures ms[i].id != ms[j].id {
      if j < 5 {
      } else if i >= 5 {
      } else {
      }
    }
  }

  lemma SpecialQuestsIdsDistinct()
    ensures DistinctIds(SpecialQuests.members)
  {
  }

  lemma GingerIslandIdsDistinct()
    ensures DistinctIds(GingerIsland.members)
  {
  }

  lemma StoryYearOneIdsDisjointFromLater()
    ensures DisjointIds(StoryYearOne.members, StoryYearTwo.members + (SpecialQuests.members + (GingerIsland.members)))
  {
    StoryYearOneDisjointGingerIsland();
    StoryYearOneDisjointSpecialQuests();
    DisjointIdsAppend(StoryYearOne.members, SpecialQuests.members, GingerIsland.members);
    StoryYearOneDisjointStoryYearTwo();
    DisjointIdsAppend(StoryYearOne.members, StoryYearTwo.members, SpecialQuests.members + (GingerIsland.members));
  }

  lemma StoryYearTwoIdsDisjointFromLater()
    ensures DisjointIds(StoryYearTwo.members, SpecialQuests.members + (GingerIsland.members))
  {
    StoryYearTwoDisjointGingerIsland();
    StoryYearTwoDisjointSpecialQuests();
    DisjointIdsAppend(StoryYearTwo.members, SpecialQuests.members, GingerIsland.members);
  }

  lemma SpecialQuestsIdsDisjointFromLater()
    ensures DisjointIds(SpecialQuests.members, GingerIsland.members)
  {
    SpecialQuestsDisjointGingerIsland();
  }

  /** Ids are pairwise distinct across the whole catalog. */
  lemma QuestIdsUnique()
    ensures UniqueIds(QuestGroups)
  {
    QuestGroupsFlatten();
    GingerIslandIdsDistinct();
    SpecialQuestsIdsDistinct();
    SpecialQuestsIdsDisjointFromLater();
    DistinctIdsAppend(SpecialQuests.members, GingerIsland.members);
    StoryYearTwoIdsDistinct();
    StoryYearTwoIdsDisjointFromLater();
    DistinctIdsAppend(StoryYearTwo.members, SpecialQuests.members + (GingerIsland.members));
    StoryYearOneIdsDistinct();
    StoryYearOneIdsDisjointFromLater();
    DistinctIdsAppend(StoryYearOne.members, StoryYearTwo.members + (SpecialQuests.members + (GingerIsland.members)));
  }

}

=== FILE: catalog_needs.dfy ===
/** What the aggregator yields on the concrete catalog of scripts/data.js. */
module CatalogNeeds {
  import opened Util
  import opened Catalog
  import opened CatalogFacts
  import opened Aggregator

  /** The construction bundle's own contributions. */
  lemma ConstructionEntries()
    ensures CraftsRoom.members[4].id == "cr_construction"
    ensures NeedFor("木材", EntryContributions(CraftsRoom.name, CraftsRoom.members[4].name, CraftsRoom.members[4].items)) == 198
    ensures SourcesFor("木材", EntryContributions(CraftsRoom.name, CraftsRoom.members[4].name, CraftsRoom.members[4].items))
      == [SourceRecord("工艺室", "建筑收集包", 99), SourceRecord("工艺室", "建筑收集包", 99)]
    ensures Mentions(EntryContributions(CraftsRoom.name, CraftsRoom.members[4].name, CraftsRoom.members[4].items), "木材")
  {
    var m := CraftsRoom.members[4];
    var e, rest := m.items[0], m.items[2..];
    assert m.items == [e] + ([e] + rest);
    assert e == Plain("木材", 99);
    assert rest == [Plain("石头", 99), Plain("硬木", 10)];
    ListedTwice(CraftsRoom.name, m.name, e, rest, "木材");
  }

  /** An entry listed twice ahead of entries that do not name its item adds
      twice its count, with one record per listing. */
  lemma ListedTwice(groupName: string, memberName: string, e: Entry, rest: seq<Entry>, item: string)
    requires e.name == item
    requires forall k :: 0 <= k < |rest| ==> rest[k].name != item
    ensures NeedFor(item, EntryContributions(groupName, memberName, [e] + ([e] + rest))) == 2 * EntryCount(e)
    ensures SourcesFor(item, EntryContributions(groupName, memberName, [e] + ([e] + rest)))
      == [SourceRecord(groupName, memberName, EntryCount(e)), SourceRecord(groupName, memberName, EntryCount(e))]
    ensures Mentions(EntryContributions(groupName, memberName, [e] + ([e] + rest)), item)
  {
    EntriesWithout(groupName, memberName, rest, item);
    EntriesCons(groupName, memberName, e, rest, item);
    EntriesCons(groupName, memberName, e, [e] + rest, item);
  }

  /** The construction bundle lists wood twice at 99, so selecting only that
      bundle needs 198 wood, with one source record per listing. */
  lemma ConstructionNeedsWood()
    ensures NeedOf(Aggregate(DonationGroups, {"cr_construction"}), "木材") == 198
    ensures "木材" in Aggregate(DonationGroups, {"cr_construction"}).sources
    ensures Aggregate(DonationGroups, {"cr_construction"}).sources["木材"]
      == [SourceRecord("工艺室", "建筑收集包", 99), SourceRecord("工艺室", "建筑收集包", 99)]
  {
    DonationBundleIdsUnique();
    ConstructionEntries();
    SingleSelectionTally(DonationGroups, 0, 4, "木材");
  }

  /** The missing bundle's own contributions. */
  lemma MissingBundleEntries()
    ensures JojaMart.members[0].id == "missing_bundle"
    ensures NeedFor("果酒", EntryContributions(JojaMart.name, JojaMart.members[0].name, JojaMart.members[0].items)) == 0
    ensures SourcesFor("果酒", EntryContributions(JojaMart.name, JojaMart.members[0].name, JojaMart.members[0].items))
      == [SourceRecord("废弃 Joja 超市", "失踪的收集包", 0)]
    ensures Mentions(EntryContributions(JojaMart.name, JojaMart.members[0].name, JojaMart.members[0].items), "果酒")
  {
    var m := JojaMart.members[0];
    var w := "果酒";
    var e0, rest := m.items[0], m.items[1..];
    assert m.items == [e0] + rest;
    assert e0 == Tiered(w, "silver", 1);
    assert forall k :: 0 <= k < |rest| ==> |rest[k].name| != |w|;
    EntriesWithout(JojaMart.name, m.name, rest, w);
    EntriesCons(JojaMart.name, m.name, e0, rest, w);
  }

  /** The wine entry of the missing bundle asks only for a silver-quality wine
      and has no count: selecting that bundle gives wine a need of 0, yet the
      entry still shows up as a source with count 0. */
  lemma QualityEntryAddsZero()
    ensures NeedOf(Aggregate(DonationGroups, {"missing_bundle"}), "果酒") == 0
    ensures "果酒" in Aggregate(DonationGroups, {"missing_bundle"}).need
    ensures "果酒" in Aggregate(DonationGroups, {"missing_bundle"}).sources
    ensures Aggregate(DonationGroups, {"missing_bundle"}).sources["果酒"]
      == [SourceRecord("废弃 Joja 超市", "失踪的收集包", 0)]
  {
    DonationBundleIdsUnique();
    MissingBundleEntries();
    SingleSelectionTally(DonationGroups, 5, 0, "果酒");
  }
}

=== FILE: csv.dfy ===
/** The item sheet reader of scripts/index.js: parseCSV (lines 191-208),
    which splits the text into trimmed non-blank lines, takes the first as
    the header and maps every later line to a header-keyed record, and the
    reading of one `need_<type>` cell (lines 222-230). */
module Csv {
  import opened Util
  import opened Ledger
  import opened Tokens

  /** `s.split(c)`: the pieces between the occurrences of `c`. The empty
      string gives one empty piece. */
  function SplitOn(s: string, c: char): (parts: seq<string>)
    ensures |parts| >= 1
    ensures forall k :: 0 <= k < |parts| ==> c !in parts[k]
    decreases |s|
  {
    if s == [] then [[]]
    else
      var rest := SplitOn(s[1..], c);
      if s[0] == c then [[]] + rest
      else
        assert forall k :: 1 <= k < |rest| ==> rest[k] == rest[1..][k - 1];
        [[s[0]] + rest[0]] + rest[1..]
  }

  /** There is one piece more than there are occurrences of `c`. */
  lemma {:induction false} SplitOnCount(s: string, c: char)
    ensures |SplitOn(s, c)| == multiset(s)[c] + 1
    decreases |s|
  {
    if s != [] {
      assert s == [s[0]] + s[1..];
      SplitOnCount(s[1..], c);
    }
  }

  /** `parts.join(c)`. */
  function JoinWith(parts: seq<string>, c: char): string
    decreases |parts|
  {
    if |parts| == 0 then []
    else if |parts| == 1 then parts[0]
    else parts[0] + [c] + JoinWith(parts[1..], c)
  }

  /** Splitting loses nothing: joining the pieces back gives the text. */
  lemma {:induction false} JoinSplit(s: string, c: char)
    ensures JoinWith(SplitOn(s, c), c) == s
    decreases |s|
  {
    if s != [] {
      var rest := SplitOn(s[1..], c);
      JoinSplit(s[1..], c);
      if s[0] == c {
        assert SplitOn(s, c) == [[]] + rest;
        var empty: string := [];
        assert empty + [c] + JoinWith(rest, c) == [c] + s[1..];
      } else {
        var parts := SplitOn(s, c);
        assert parts[1..] == rest[1..];
        if |rest| == 1 {
          assert parts == [[s[0]] + rest[0]];
        } else {
          assert JoinWith(rest, c) == rest[0] + [c] + JoinWith(rest[1..], c);
        }
      }
    }
  }

  lemma {:induction false} SplitPiece(p: string, rest: string, c: char)
    requires c !in p
    ensures SplitOn(p + [c] + rest, c) == [p] + SplitOn(rest, c)
    ensures SplitOn(p, c) == [p]
    decreases |p|
  {
    if p == [] {
      assert p + [c] + rest == [c] + rest;
      assert ([c] + rest)[1..] == rest;
    } else {
      SplitPiece(p[1..], rest, c);
      assert (p + [c] + rest)[1..] == p[1..] + [c] + rest;
      assert [p[0]] + p[1..] == p;
    }
  }

  /** Pieces free of `c` survive a join and a split unchanged. */
  lemma {:induction false} SplitJoin(parts: seq<string>, c: char)
    requires |parts| >= 1
    requires forall k :: 0 <= k < |parts| ==> c !in parts[k]
    ensures SplitOn(JoinWith(parts, c), c) == parts
    decreases |parts|
  {
    if |parts| == 1 {
      SplitPiece(parts[0], [], c);
    } else {
      SplitJoin(parts[1..], c);
      SplitPiece(parts[0], JoinWith(parts[1..], c), c);
    }
  }

  // ---------------------------------------------------------------------------
  // parseCSV

  /** `text.split('\n').map(l => l.trim()).filter(l => l)`. */
  function Lines(text: string): (ls: seq<string>)
    ensures forall k :: 0 <= k < |ls| ==> ls[k] != []
  {
    Clean(SplitOn(text, '\n'))
  }

  /** `line.split(',').map(s => s.trim())`: one cell per comma plus one,
      each free of commas and of surrounding whitespace. */
  function Cells(line: string): (cols: seq<string>)
    ensures |cols| == |SplitOn(line, ',')|
    ensures forall k :: 0 <= k < |cols| ==> cols[k] == Trim(SplitOn(line, ',')[k])
    ensures |cols| == multiset(line)[','] + 1
    ensures forall k :: 0 <= k < |cols| ==> ',' !in cols[k]
    ensures forall k :: 0 <= k < |cols| && cols[k] != [] ==>
      !IsWhitespace(cols[k][0]) && !IsWhitespace(cols[k][|cols[k]| - 1])
  {
    var parts := SplitOn(line, ',');
    SplitOnCount(line, ',');
    forall k | 0 <= k < |parts| ensures ',' !in Trim(parts[k]) {
      if ',' in Trim(parts[k]) {
        TrimSubset(parts[k], ',');
      }
    }
    seq(|parts|, k requires 0 <= k < |parts| => Trim(parts[k]))
  }

  /** `cols[i] ?? ''`. */
  function CellAt(cols: seq<string>, i: nat): string
  {
    if i < |cols| then cols[i] else ""
  }

  /** The record of one line: each header key maps to the cell in its column,
      or to "" past the end of the line. Keys are assigned left to right. */
  function RecordOf(header: seq<string>, cols: seq<string>): (r: map<string, string>)
    ensures forall key :: key in r <==> key in header
    decreases |header|
  {
    if header == [] then map[]
    else
      var n := |header| - 1;
      var init := header[..n];
      assert header == init + [header[n]];
      RecordOf(init, cols)[header[n] := CellAt(cols, n)]
  }

  /** Of two equal header keys the later column wins: a key that does not
      occur again to its right maps to the cell in its own column. */
  lemma {:induction false} RecordOfCell(header: seq<string>, cols: seq<string>, i: nat)
    requires i < |header|
    requires forall j :: i < j < |header| ==> header[j] != header[i]
    ensures header[i] in RecordOf(header, cols)
    ensures RecordOf(header, cols)[header[i]] == CellAt(cols, i)
    decreases |header|
  {
    var n := |header| - 1;
    if i < n {
      var init := header[..n];
      assert init[i] == header[i];
      RecordOfCell(init, cols, i);
    }
  }

  /** parseCSV. Text without a non-blank line has no header line, and the
      source then fails reading `lines[0]`; that is the failure here. */
  function ParseCSV(text: string): (r: Result<seq<map<string, string>>, string>)
    ensures r.Failure? <==> Lines(text) == []
    ensures r.Success? ==> |r.value| == |Lines(text)| - 1
    ensures r.Success? ==> forall k :: 0 <= k < |r.value| ==>
      forall key :: key in r.value[k] <==> key in Cells(Lines(text)[0])
    ensures r.Success? ==> forall k :: 0 <= k < |r.value| ==>
      r.value[k] == RecordOf(Cells(Lines(text)[0]), Cells(Lines(text)[k + 1]))
  {
    var lines := Lines(text);
    if lines == [] then Failure("no header line")
    else Success(Records(Cells(lines[0]), lines[1..]))
  }

  /** `rows.map(line => ...)`: the record of every data line. */
  function Records(header: seq<string>, lines: seq<string>): (r: seq<map<string, string>>)
    ensures |r| == |lines|
    ensures forall k :: 0 <= k < |r| ==> forall key :: key in r[k] <==> key in header
    ensures forall k :: 0 <= k < |r| ==> r[k] == RecordOf(header, Cells(lines[k]))
  {
    seq(|lines|, k requires 0 <= k < |lines| => RecordOf(header, Cells(lines[k])))
  }

  // ---------------------------------------------------------------------------
  // Round trip: a sheet written with ',' and '\n' reads back as its records.

  /** A cell the sheet can carry unchanged: no comma or line break, and no
      whitespace at either end. */
  predicate PlainCell(s: string)
  {
    ',' !in s && '\n' !in s && Trim(s) == s
  }

  /** A header row and data rows that write and read back faithfully: plain
      cells, every row as wide as the header, and a non-empty first cell in
      every line so that no line is blank. */
  predicate WellFormedSheet(header: seq<string>, rows: seq<seq<string>>)
  {
    && |header| >= 1 && header[0] != []
    && (forall i :: 0 <= i < |header| ==> PlainCell(header[i]))
    && (forall k :: 0 <= k < |rows| ==> |rows[k]| == |header| && rows[k][0] != [])
    && (forall k, i :: 0 <= k < |rows| && 0 <= i < |rows[k]| ==> PlainCell(rows[k][i]))
  }

  /** The text of a sheet: cells joined by ',', lines joined by '\n'. */
  function Render(header: seq<string>, rows: seq<seq<string>>): string
  {
    JoinWith([JoinWith(header, ',')] + seq(|rows|, k requires 0 <= k < |rows| => JoinWith(rows[k], ',')), '\n')
  }

  lemma {:induction false} JoinWithFree(parts: seq<string>, c: char, d: char)
    requires forall k :: 0 <= k < |parts| ==> d !in parts[k]
    requires c != d
    ensures d !in JoinWith(parts, c)
    decreases |parts|
  {
    if |parts| > 1 {
      JoinWithFree(parts[1..], c, d);
    }
  }

  lemma JoinWithFirst(parts: seq<string>, c: char)
    requires |parts| >= 1 && parts[0] != []
    ensures JoinWith(parts, c) != [] && JoinWith(parts, c)[0] == parts[0][0]
  {
  }

  lemma {:induction false} JoinWithLast(parts: seq<string>, c: char)
    requires |parts| >= 1
    ensures var j := JoinWith(parts, c); var last := parts[|parts| - 1];
      last != [] ==> j != [] && j[|j| - 1] == last[|last| - 1]
    ensures var j := JoinWith(parts, c); var last := parts[|parts| - 1];
      last == [] && |parts| > 1 ==> j != [] && j[|j| - 1] == c
    decreases |parts|
  {
    if |parts| > 2 {
      JoinWithLast(parts[1..], c);
    }
  }

  /** A written line of plain cells starts and ends without whitespace. */
  lemma LineTrimmed(cells: seq<string>)
    requires |cells| >= 1 && cells[0] != []
    requires forall i :: 0 <= i < |cells| ==> PlainCell(cells[i])
    ensures JoinWith(cells, ',') != []
    ensures Trim(JoinWith(cells, ',')) == JoinWith(cells, ',')
  {
    var line := JoinWith(cells, ',');
    JoinWithFirst(cells, ',');
    JoinWithLast(cells, ',');
    assert Trim(cells[0]) == cells[0];
    assert !IsWhitespace(line[0]);
    var last := cells[|cells| - 1];
    if last != [] {
      assert Trim(last) == last;
    }
    assert !IsWhitespace(line[|line| - 1]);
    TrimKeeps(line);
  }

  /** A written line of plain cells reads back as those cells. */
  lemma LineRoundTrip(cells: seq<string>)
    requires |cells| >= 1 && cells[0] != []
    requires forall i :: 0 <= i < |cells| ==> PlainCell(cells[i])
    ensures '\n' !in JoinWith(cells, ',')
    ensures Trim(JoinWith(cells, ',')) == JoinWith(cells, ',') && JoinWith(cells, ',') != []
    ensures Cells(JoinWith(cells, ',')) == cells
  {
    var line := JoinWith(cells, ',');
    JoinWithFree(cells, ',', '\n');
    LineTrimmed(cells);
    SplitJoin(cells, ',');
    var cols := Cells(line);
    assert |cols| == |cells|;
    assert forall k :: 0 <= k < |cells| ==> cols[k] == Trim(cells[k]) == cells[k];
  }

  /** Trimming and dropping blank lines keeps lines that are already trimmed
      and non-empty. */
  lemma {:induction false} CleanKeeps(ls: seq<string>)
    requires forall k :: 0 <= k < |ls| ==> ls[k] != [] && Trim(ls[k]) == ls[k]
    ensures Clean(ls) == ls
    decreases |ls|
  {
    if ls != [] {
      CleanKeeps(ls[1..]);
    }
  }

  /** The lines of a written sheet. */
  function SheetLines(header: seq<string>, rows: seq<seq<string>>): (ls: seq<string>)
    ensures |ls| == |rows| + 1
  {
    [JoinWith(header, ',')] + seq(|rows|, k requires 0 <= k < |rows| => JoinWith(rows[k], ','))
  }

  /** The lines of a written sheet are exactly what parseCSV reads back as
      lines, and each reads back as its cells. */
  lemma SheetLinesRead(header: seq<string>, rows: seq<seq<string>>)
    requires WellFormedSheet(header, rows)
    ensures Lines(Render(header, rows)) == SheetLines(header, rows)
    ensures Cells(SheetLines(header, rows)[0]) == header
    ensures forall k :: 0 <= k < |rows| ==> Cells(SheetLines(header, rows)[k + 1]) == rows[k]
  {
    var lines := SheetLines(header, rows);
    assert Render(header, rows) == JoinWith(lines, '\n');
    LineRoundTrip(header);
    forall k | 0 <= k < |rows|
      ensures '\n' !in lines[k + 1] && Trim(lines[k + 1]) == lines[k + 1] && lines[k + 1] != []
      ensures Cells(lines[k + 1]) == rows[k]
    {
      assert lines[k + 1] == JoinWith(rows[k], ',');
      LineRoundTrip(rows[k]);
    }
    assert forall k :: 0 <= k < |lines| ==> '\n' !in lines[k] && Trim(lines[k]) == lines[k] && lines[k] != [] by {
      forall k | 0 <= k < |lines|
        ensures '\n' !in lines[k] && Trim(lines[k]) == lines[k] && lines[k] != []
      {
        if k > 0 {
          assert lines[(k - 1) + 1] == lines[k];
        }
      }
    }
    SplitJoin(lines, '\n');
    CleanKeeps(lines);
  }

  /** parseCSV reads a well-formed sheet back as one record per data row,
      built from the header and that row's cells. */
  lemma ParseRendered(header: seq<string>, rows: seq<seq<string>>)
    requires WellFormedSheet(header, rows)
    ensures ParseCSV(Render(header, rows)).Success?
    ensures ParseCSV(Render(header, rows)).value == seq(|rows|, k requires 0 <= k < |rows| => RecordOf(header, rows[k]))
  {
    SheetLinesRead(header, rows);
    var lines := SheetLines(header, rows);
    var data := lines[1..];
    assert forall k :: 0 <= k < |rows| ==> Cells(data[k]) == rows[k] by {
      forall k | 0 <= k < |rows| ensures Cells(data[k]) == rows[k] {
        assert data[k] == lines[k + 1];
      }
    }
    assert ParseCSV(Render(header, rows)) == Success(Records(header, data));
  }

  /** With distinct header keys, every record of a written sheet gives back
      the cell of every column. */
  lemma ParseRenderedCells(header: seq<string>, rows: seq<seq<string>>)
    requires WellFormedSheet(header, rows)
    requires NoDuplicates(header)
    ensures ParseCSV(Render(header, rows)).Success?
    ensures |ParseCSV(Render(header, rows)).value| == |rows|
    ensures forall k, i :: 0 <= k < |rows| && 0 <= i < |header| ==>
      header[i] in ParseCSV(Render(header, rows)).value[k] &&
      ParseCSV(Render(header, rows)).value[k][header[i]] == rows[k][i]
  {
    ParseRendered(header, rows);
    var r := ParseCSV(Render(header, rows));
    forall k, i | 0 <= k < |rows| && 0 <= i < |header|
      ensures header[i] in r.value[k] && r.value[k][header[i]] == rows[k][i]
    {
      assert r.value[k] == RecordOf(header, rows[k]);
      RecordOfCell(header, rows[k], i);
    }
  }

  // ---------------------------------------------------------------------------
  // Blank lines and the whitespace around lines are dropped before the header
  // is taken.

  /** Text made of lines without line breaks splits into those lines, each
      trimmed, with the blank ones dropped. */
  lemma LinesJoin(ls: seq<string>)
    requires forall k :: 0 <= k < |ls| ==> '\n' !in ls[k]
    ensures Lines(JoinWith(ls, '\n')) == Clean(ls)
  {
    if ls == [] {
      assert SplitOn([], '\n') == [[]];
      CleanSingle([]);
    } else {
      SplitJoin(ls, '\n');
    }
  }

  /** parseCSV reads text as it reads its cleaned lines: blank lines, a
      trailing newline and whitespace around lines change nothing. */
  lemma ParseCleanLines(ls: seq<string>)
    requires forall k :: 0 <= k < |ls| ==> '\n' !in ls[k]
    ensures ParseCSV(JoinWith(ls, '\n')) == ParseCSV(JoinWith(Clean(ls), '\n'))
  {
    LinesJoin(ls);
    CleanFree(ls, '\n');
    LinesJoin(Clean(ls));
    CleanIdempotent(ls);
  }

  lemma {:induction false} JoinWithSnoc(parts: seq<string>, p: string, c: char)
    requires |parts| >= 1
    ensures JoinWith(parts + [p], c) == JoinWith(parts, c) + [c] + p
    decreases |parts|
  {
    if |parts| == 1 {
      assert (parts + [p])[1..] == [p];
    } else {
      assert (parts + [p])[1..] == parts[1..] + [p];
      JoinWithSnoc(parts[1..], p, c);
    }
  }

  /** parseCSV looks at the text only through its lines. */
  lemma ParseSameLines(t1: string, t2: string)
    requires Lines(t1) == Lines(t2)
    ensures ParseCSV(t1) == ParseCSV(t2)
  {
  }

  /** No line of a written sheet holds a line break. */
  lemma SheetLinesFree(header: seq<string>, rows: seq<seq<string>>)
    requires WellFormedSheet(header, rows)
    ensures forall k :: 0 <= k < |SheetLines(header, rows)| ==> '\n' !in SheetLines(header, rows)[k]
  {
    var lines := SheetLines(header, rows);
    forall k | 0 <= k < |lines| ensures '\n' !in lines[k] {
      if k == 0 {
        JoinWithFree(header, ',', '\n');
      } else {
        assert lines[k] == JoinWith(rows[k - 1], ',');
        JoinWithFree(rows[k - 1], ',', '\n');
      }
    }
  }

  /** A written sheet that ends with a newline reads as the sheet does. */
  lemma ParseRenderedTrailing(header: seq<string>, rows: seq<seq<string>>)
    requires WellFormedSheet(header, rows)
    ensures ParseCSV(Render(header, rows) + "\n") == ParseCSV(Render(header, rows))
  {
    var lines := SheetLines(header, rows);
    var text := Render(header, rows);
    var empty: string := [];
    var more := lines + [empty];
    assert text == JoinWith(lines, '\n');
    JoinWithSnoc(lines, empty, '\n');
    assert text + "\n" == JoinWith(more, '\n');
    SheetLinesFree(header, rows);
    assert forall k :: 0 <= k < |more| ==> '\n' !in more[k] by {
      forall k | 0 <= k < |more| ensures '\n' !in more[k] {
        if k < |lines| {
          assert more[k] == lines[k];
        }
      }
    }
    LinesJoin(more);
    LinesJoin(lines);
    CleanAppend(lines, [empty]);
    CleanSingle(empty);
    assert Clean(more) == Clean(lines);
    ParseSameLines(text + "\n", text);
  }

  // ---------------------------------------------------------------------------
  // One need cell (index.js:222-230)

  predicate IsDigit(c: char)
  {
    '0' <= c <= '9'
  }

  function DigitValue(c: char): nat
    requires IsDigit(c)
  {
    c as int - '0' as int
  }

  /** Length of the leading run of decimal digits. */
  function DigitRun(s: string): (n: nat)
    ensures n <= |s|
    ensures forall k :: 0 <= k < n ==> IsDigit(s[k])
    ensures n < |s| ==> !IsDigit(s[n])
    decreases |s|
  {
    if s != [] && IsDigit(s[0]) then
      var n := 1 + DigitRun(s[1..]);
      assert forall k :: 1 <= k < n ==> s[k] == s[1..][k - 1];
      n
    else 0
  }

  /** The decimal value of a string of digits. */
  function DigitsValue(s: string): nat
    requires forall k :: 0 <= k < |s| ==> IsDigit(s[k])
    decreases |s|
  {
    if s == [] then 0
    else DigitsValue(s[..|s| - 1]) * 10 + DigitValue(s[|s| - 1])
  }

  /** `parseInt(s, 10)` on a trimmed string: an optional sign, then the
      leading digits; no digits is NaN, modelled as None. */
  function ParseIntPrefix(s: string): (r: Option<int>)
    ensures r.None? <==> DigitRun(if s != [] && (s[0] == '-' || s[0] == '+') then s[1..] else s) == 0
  {
    var negative := s != [] && s[0] == '-';
    var body := if s != [] && (s[0] == '-' || s[0] == '+') then s[1..] else s;
    match LeadingDigits(body)
    case None => None
    case Some(v) => Some(if negative then -(v as int) else v)
  }

  /** The value of the leading run of digits, None when there is none. */
  function LeadingDigits(s: string): (r: Option<nat>)
    ensures r.None? <==> DigitRun(s) == 0
  {
    var n := DigitRun(s);
    if n == 0 then None else Some(DigitsValue(s[..n]))
  }

  /** Reading stops at the first character that is not a digit. */
  lemma LeadingDigitsOf(digits: string, rest: string)
    requires digits != [] && forall k :: 0 <= k < |digits| ==> IsDigit(digits[k])
    requires rest == [] || !IsDigit(rest[0])
    ensures LeadingDigits(digits + rest) == Some(DigitsValue(digits))
  {
    DigitRunPrefix(digits, rest);
    assert (digits + rest)[..|digits|] == digits;
  }

  /** One `need_<type>` cell: `x` or `X` is the unbounded marker; otherwise
      the integer it starts with, where a blank cell reads as `'0'` and a
      cell that is not a number reads as 0. */
  function ParseNeed(raw: string): (v: NeedValue)
    ensures v == Unbounded <==> Trim(raw) == "x" || Trim(raw) == "X"
    ensures Trim(raw) == [] ==> v == Count(0)
    ensures v.Count? && ParseIntPrefix(Trim(raw)).None? ==> v.n == 0
    ensures v.Count? && Trim(raw) != [] && ParseIntPrefix(Trim(raw)).Some? ==>
      v.n == ParseIntPrefix(Trim(raw)).value
  {
    var t := Trim(raw);
    ParseIntDigits("0");
    if t == "x" || t == "X" then Unbounded
    else
      match ParseIntPrefix(if t == [] then "0" else t)
      case None => Count(0)
      case Some(n) => Count(n)
  }

  /** The decimal digit for `d` < 10. */
  function DigitChar(d: nat): (c: char)
    requires d < 10
    ensures IsDigit(c) && DigitValue(c) == d
  {
    (48 + d) as char
  }

  /** The decimal digits of `n`, most significant first. */
  function NatToDigits(n: nat): (s: string)
    ensures s != []
    ensures forall k :: 0 <= k < |s| ==> IsDigit(s[k])
    decreases n
  {
    if n < 10 then [DigitChar(n)] else NatToDigits(n / 10) + [DigitChar(n % 10)]
  }

  lemma {:induction false} DigitsRoundTrip(n: nat)
    ensures DigitsValue(NatToDigits(n)) == n
    decreases n
  {
    var s := NatToDigits(n);
    if n >= 10 {
      DigitsRoundTrip(n / 10);
      assert s[..|s| - 1] == NatToDigits(n / 10);
    } else {
      assert s[..0] == [];
    }
  }

  lemma {:induction false} DigitRunAll(s: string)
    requires forall k :: 0 <= k < |s| ==> IsDigit(s[k])
    ensures DigitRun(s) == |s|
    decreases |s|
  {
    if s != [] {
      assert forall k :: 0 <= k < |s| - 1 ==> s[1..][k] == s[k + 1];
      DigitRunAll(s[1..]);
    }
  }

  /** parseInt of an unsigned run of digits is its value. */
  lemma ParseIntDigits(digits: string)
    requires digits != [] && forall k :: 0 <= k < |digits| ==> IsDigit(digits[k])
    ensures ParseIntPrefix(digits) == Some(DigitsValue(digits))
  {
    DigitRunAll(digits);
    assert digits[..|digits|] == digits;
    assert digits[0] != '-' && digits[0] != '+';
  }

  /** parseInt of '-' and a run of digits is the negated value. */
  lemma ParseIntNegative(digits: string)
    requires digits != [] && forall k :: 0 <= k < |digits| ==> IsDigit(digits[k])
    ensures ParseIntPrefix("-" + digits) == Some(-(DigitsValue(digits) as int))
  {
    var s := "-" + digits;
    assert s != [] && s[0] == '-' && s[1..] == digits;
    DigitRunAll(digits);
    assert s[1..][..DigitRun(s[1..])] == digits;
  }

  lemma {:induction false} DigitRunPrefix(digits: string, rest: string)
    requires forall k :: 0 <= k < |digits| ==> IsDigit(digits[k])
    requires rest == [] || !IsDigit(rest[0])
    ensures DigitRun(digits + rest) == |digits|
    decreases |digits|
  {
    if digits == [] {
      assert digits + rest == rest;
    } else {
      assert (digits + rest)[0] == digits[0];
      assert (digits + rest)[1..] == digits[1..] + rest;
      DigitRunPrefix(digits[1..], rest);
    }
  }

  lemma ParseIntUnsigned(digits: string, rest: string)
    requires digits != [] && forall k :: 0 <= k < |digits| ==> IsDigit(digits[k])
    requires rest == [] || !IsDigit(rest[0])
    ensures ParseIntPrefix(digits + rest) == Some(DigitsValue(digits))
  {
    assert (digits + rest)[0] == digits[0];
    LeadingDigitsOf(digits, rest);
  }

  /** parseInt reads a sign and the whole run of digits after it, and
      ignores whatever follows the digits: `"-3 "` reads as -3. */
  lemma ParseIntSigned(c: char, digits: string, rest: string)
    requires c == '+' || c == '-'
    requires digits != [] && forall k :: 0 <= k < |digits| ==> IsDigit(digits[k])
    requires rest == [] || !IsDigit(rest[0])
    ensures ParseIntPrefix([c] + (digits + rest))
      == Some(if c == '-' then -(DigitsValue(digits) as int) else DigitsValue(digits))
  {
    var body := digits + rest;
    assert ([c] + body)[0] == c && ([c] + body)[1..] == body;
    LeadingDigitsOf(digits, rest);
  }

  /** A `+` before the digits changes nothing, and neither does what follows
      them: `"+5"` reads as `"5"` and `"12abc"` as `"12"`. */
  lemma ParseIntPlus(digits: string, rest: string)
    requires digits != [] && forall k :: 0 <= k < |digits| ==> IsDigit(digits[k])
    requires rest == [] || !IsDigit(rest[0])
    ensures ParseIntPrefix("+" + (digits + rest)) == ParseIntPrefix(digits + rest)
    ensures ParseIntPrefix(digits + rest) == ParseIntPrefix(digits)
  {
    ParseIntSigned('+', digits, rest);
    assert "+" == ['+'];
    ParseIntUnsigned(digits, rest);
    ParseIntDigits(digits);
  }

  /** A need cell with a `+` sign reads as the number after it, as parseInt
      gives it: `"+5"` is 5. */
  lemma ParseNeedPlusSign()
    ensures ParseNeed("+5") == Count(5)
  {
    var plus, five: string := "+5", "5";
    TrimKeeps(plus);
    assert plus == ['+'] + (five + []);
    ParseIntSigned('+', five, []);
    assert DigitsValue(five) == 5;
  }

  /** A need cell that starts with digits reads as those digits, whatever
      follows them: `"12abc"` is 12. */
  lemma ParseNeedTrailingText()
    ensures ParseNeed("12abc") == Count(12)
  {
    var twelve, abc: string := "12", "abc";
    var cell := twelve + abc;
    assert cell == "12abc";
    TrimKeeps(cell);
    ParseIntUnsigned(twelve, abc);
    assert DigitsValue(twelve) == 12 by {
      assert twelve[..1] == "1";
    }
  }

  /** How the sheet writes a need cell. */
  function RenderNeed(v: NeedValue): string
  {
    match v
    case Unbounded => "x"
    case Count(n) => if n < 0 then "-" + NatToDigits(-n) else NatToDigits(n)
  }

  /** A need cell written by RenderNeed reads back as the same value. */
  lemma NeedRoundTrip(v: NeedValue)
    ensures ParseNeed(RenderNeed(v)) == v
  {
    var s := RenderNeed(v);
    TrimKeeps(s);
    if v.Count? {
      NumberRoundTrip(v.n);
    }
  }

  /** A number written by RenderNeed reads back through parseInt. */
  lemma NumberRoundTrip(n: int)
    ensures ParseIntPrefix(RenderNeed(Count(n))) == Some(n)
  {
    var m: nat := if n < 0 then -n else n;
    DigitsRoundTrip(m);
    if n < 0 {
      ParseIntNegative(NatToDigits(m));
    } else {
      ParseIntDigits(NatToDigits(m));
    }
  }
}

=== FILE: ledger.dfy ===
/** The item ledger of scripts/index.js: each item's needs and done counters,
    the recompute that restores baselines and writes the two dynamic columns
    from the aggregator, the per-item totals under a demand-type filter, the
    completion test, the progress-cell clicks and the progress resets. */
module Ledger {
  import opened Util
  import opened Catalog
  import opened Aggregator

  /** One need cell: a count, or the `'x'` marker of an unbounded need. */
  datatype NeedValue = Count(n: int) | Unbounded

  /** A tracked item. `needs` and `done` are keyed by demand type; an absent
      key reads as 0. `baseNeeds` is the optional baseline the recompute
      restores from. */
  datatype Item = Item(
    name: string,
    season: string,
    category: string,
    favorite: string,
    needs: map<string, NeedValue>,
    baseNeeds: Option<map<string, NeedValue>>,
    done: map<string, int>)

  /** The cell of type `t` holds the `'x'` marker. */
  predicate IsUnbounded(item: Item, t: string)
  {
    t in item.needs && item.needs[t] == Unbounded
  }

  /** `n || 0` on a counted cell: the count, 0 when the cell is absent. */
  function NeedNum(item: Item, t: string): int
  {
    match GetOr(item.needs, t, Count(0))
    case Count(n) => n
    case Unbounded => 0
  }

  /** `item.done[type] || 0`. */
  function DoneOf(item: Item, t: string): int
  {
    GetOr(item.done, t, 0)
  }

  // ---------------------------------------------------------------------------
  // recomputeDynamicNeeds (index.js:330-357)

  /** The recompute restores type `t` of `item` from its baseline. */
  predicate Restored(item: Item, t: string)
  {
    item.baseNeeds.Some? && t in DemandTypes && t in item.baseNeeds.value
  }

  /** `after` is `before` recomputed with donation need `d` and quest need `q`:
      the two dynamic cells hold the aggregated counts, every other demand
      type with a baseline holds its baseline, every other cell is as it was,
      and nothing but the needs changes. */
  ghost predicate RecomputedFrom(before: Item, after: Item, d: int, q: int)
  {
    && after == before.(needs := after.needs)
    && Donation in after.needs && after.needs[Donation] == Count(d)
    && Quest in after.needs && after.needs[Quest] == Count(q)
    && (forall t :: t != Donation && t != Quest && Restored(before, t) ==>
          t in after.needs && after.needs[t] == before.baseNeeds.value[t])
    && (forall t :: t != Donation && t != Quest && !Restored(before, t) ==>
          (t in after.needs <==> t in before.needs))
    && (forall t :: t in before.needs && t != Donation && t != Quest && !Restored(before, t) ==>
          after.needs[t] == before.needs[t])
  }

  /** The baseline pass over the demand types `types`, in order. */
  function RestoreBaseline(needs: map<string, NeedValue>, base: Option<map<string, NeedValue>>, types: seq<string>): (r: map<string, NeedValue>)
    ensures forall t :: t in r <==> t in needs || (base.Some? && t in types && t in base.value)
    ensures forall t :: base.Some? && t in types && t in base.value ==> t in r && r[t] == base.value[t]
    ensures forall t :: t in needs && !(base.Some? && t in types && t in base.value) ==> r[t] == needs[t]
    decreases |types|
  {
    if types == [] then needs
    else
      var t := types[0];
      var needs' := if base.Some? && t in base.value then needs[t := base.value[t]] else needs;
      RestoreBaseline(needs', base, types[1..])
  }

  /** One item's recompute: restore its baseline, then overwrite the two
      dynamic cells with `d` and `q`. */
  function RecomputeItem(item: Item, d: int, q: int): (r: Item)
    ensures RecomputedFrom(item, r, d, q)
  {
    var restored := RestoreBaseline(item.needs, item.baseNeeds, DemandTypes);
    item.(needs := restored[Donation := Count(d)][Quest := Count(q)])
  }

  /** recomputeDynamicNeeds: every item gets, in the donation column, the
      aggregated need of the selected bundles for its name and, in the quest
      column, that of the selected quests (0 when nothing asks for it). */
  function RecomputeDynamicNeeds(items: seq<Item>, bundles: seq<Group>, bundleSel: set<string>,
                                 quests: seq<Group>, questSel: set<string>): (r: seq<Item>)
    ensures |r| == |items|
    ensures forall k :: 0 <= k < |items| ==>
      RecomputedFrom(items[k], r[k],
        NeedFor(items[k].name, Contributions(bundles, bundleSel)),
        NeedFor(items[k].name, Contributions(quests, questSel)))
  {
    var d := Aggregate(bundles, bundleSel);
    var q := Aggregate(quests, questSel);
    forall k | 0 <= k < |items| ensures NeedOf(d, items[k].name) == NeedFor(items[k].name, Contributions(bundles, bundleSel))
      && NeedOf(q, items[k].name) == NeedFor(items[k].name, Contributions(quests, questSel)) {
      AggregateNeedOf(bundles, bundleSel, items[k].name);
      AggregateNeedOf(quests, questSel, items[k].name);
    }
    seq(|items|, k requires 0 <= k < |items| => RecomputeItem(items[k], NeedOf(d, items[k].name), NeedOf(q, items[k].name)))
  }

  lemma RecomputeItemIdempotent(item: Item, d: int, q: int)
    ensures RecomputeItem(RecomputeItem(item, d, q), d, q) == RecomputeItem(item, d, q)
  {
    var once := RecomputeItem(item, d, q);
    var twice := RecomputeItem(once, d, q);
    assert forall t :: Restored(once, t) <==> Restored(item, t);
    forall t | t != Donation && t != Quest && Restored(item, t)
      ensures t in once.needs && once.needs[t] == item.baseNeeds.value[t]
    {
    }
    assert twice.needs.Keys == once.needs.Keys;
    assert forall t :: t in twice.needs ==> twice.needs[t] == once.needs[t];
  }

  /** Recomputing twice with unchanged selections gives what recomputing once
      gives. */
  lemma RecomputeIdempotent(items: seq<Item>, bundles: seq<Group>, bundleSel: set<string>,
                            quests: seq<Group>, questSel: set<string>)
    ensures RecomputeDynamicNeeds(RecomputeDynamicNeeds(items, bundles, bundleSel, quests, questSel), bundles, bundleSel, quests, questSel)
      == RecomputeDynamicNeeds(items, bundles, bundleSel, quests, questSel)
  {
    var d := Aggregate(bundles, bundleSel);
    var q := Aggregate(quests, questSel);
    var once := RecomputeDynamicNeeds(items, bundles, bundleSel, quests, questSel);
    var twice := RecomputeDynamicNeeds(once, bundles, bundleSel, quests, questSel);
    forall k | 0 <= k < |items| ensures twice[k] == once[k] {
      RecomputeItemIdempotent(items[k], NeedOf(d, items[k].name), NeedOf(q, items[k].name));
    }
  }
}

=== FILE: progress.dfy ===
/** Progress evaluation and editing of scripts/index.js: the totals of a row
    under the visible demand types, the completion test the table sorts and
    greys by, the click rules of the progress cells, and the resets. */
module Progress {
  import opened Catalog
  import opened Ledger

  /** `{ need, done, hasInfinite }` of getTotalsForItem. */
  datatype Totals = Totals(need: int, done: int, hasInfinite: bool)

  /** An empty filter stands for every demand type. */
  function VisibleTypes(filter: seq<string>): (types: seq<string>)
    ensures |filter| == 0 ==> types == DemandTypes
    ensures |filter| > 0 ==> types == filter
  {
    if |filter| > 0 then filter else DemandTypes
  }

  /** Some type of `types` is an `'x'` cell of `item`. */
  predicate AnyUnbounded(item: Item, types: seq<string>)
  {
    exists k :: 0 <= k < |types| && IsUnbounded(item, types[k])
  }

  /** The counted cell of type `t` is satisfied: its done reaches its need.
      An `'x'` cell is not counted and so never blocks. */
  predicate CellSatisfied(item: Item, t: string)
  {
    IsUnbounded(item, t) || DoneOf(item, t) >= NeedNum(item, t)
  }

  /** The loop of getTotalsForItem over `types`: `'x'` cells raise the flag and
      are left out of both sums; every other cell adds its need and its done
      clamped to that need. */
  function TotalsOver(item: Item, types: seq<string>): (r: Totals)
    ensures r.done <= r.need
    ensures r.hasInfinite <==> AnyUnbounded(item, types)
    ensures r.done == r.need <==> forall k :: 0 <= k < |types| ==> CellSatisfied(item, types[k])
    decreases |types|
  {
    if types == [] then Totals(0, 0, false)
    else
      var t := types[0];
      var rest := TotalsOver(item, types[1..]);
      assert forall k :: 0 < k < |types| ==> types[k] == types[1..][k - 1];
      assert AnyUnbounded(item, types[1..]) ==> AnyUnbounded(item, types) by {
        if AnyUnbounded(item, types[1..]) {
          var k :| 0 <= k < |types[1..]| && IsUnbounded(item, types[1..][k]);
          assert IsUnbounded(item, types[k + 1]);
        }
      }
      if IsUnbounded(item, t) then
        Totals(rest.need, rest.done, true)
      else
        var num := NeedNum(item, t);
        var d := if DoneOf(item, t) < num then DoneOf(item, t) else num;
        Totals(rest.need + num, rest.done + d, rest.hasInfinite)
  }

  /** getTotalsForItem (index.js:76-102). */
  function GetTotals(item: Item, filter: seq<string>): (r: Totals)
    ensures r == TotalsOver(item, VisibleTypes(filter))
    ensures r.done <= r.need
    ensures r.hasInfinite <==> AnyUnbounded(item, VisibleTypes(filter))
    ensures r.done == r.need <==>
      forall k :: 0 <= k < |VisibleTypes(filter)| ==> CellSatisfied(item, VisibleTypes(filter)[k])
  {
    TotalsOver(item, VisibleTypes(filter))
  }

  /** The totals of one visible cell: an `'x'` cell adds nothing to either
      sum and raises the flag; any other cell adds its need and its done
      clamped to that need. */
  lemma TotalsSingle(item: Item, t: string)
    ensures TotalsOver(item, [t]) ==
      if IsUnbounded(item, t) then Totals(0, 0, true)
      else Totals(NeedNum(item, t), if DoneOf(item, t) < NeedNum(item, t) then DoneOf(item, t) else NeedNum(item, t), false)
  {
    assert [t][1..] == [];
  }

  /** The totals over two runs of types are the sums of their totals, and the
      flag is raised when either raises it. With `TotalsSingle` this fixes
      the totals of every list of types. */
  lemma {:induction false} TotalsAppend(item: Item, a: seq<string>, b: seq<string>)
    ensures TotalsOver(item, a + b) == Totals(
      TotalsOver(item, a).need + TotalsOver(item, b).need,
      TotalsOver(item, a).done + TotalsOver(item, b).done,
      TotalsOver(item, a).hasInfinite || TotalsOver(item, b).hasInfinite)
    decreases |a|
  {
    if a == [] {
      assert a + b == b;
    } else {
      assert (a + b)[0] == a[0];
      assert (a + b)[1..] == a[1..] + b;
      TotalsAppend(item, a[1..], b);
    }
  }

  /** A row whose visible cells are all `'x'` has nothing to count: both sums
      are 0, so it is never complete. */
  lemma {:induction false} TotalsAllUnbounded(item: Item, types: seq<string>)
    requires forall k :: 0 <= k < |types| ==> IsUnbounded(item, types[k])
    ensures TotalsOver(item, types).need == 0 && TotalsOver(item, types).done == 0
    decreases |types|
  {
    if types != [] {
      assert forall k :: 0 <= k < |types| - 1 ==> types[1..][k] == types[k + 1];
      TotalsAllUnbounded(item, types[1..]);
    }
  }

  /** isItemCompleteUnderFilter (index.js:105-108): an item is complete when
      its visible counted need is positive and every visible counted cell has
      reached its need. An item whose visible need is 0 (nothing asked, or
      only `'x'` cells) is never complete. */
  predicate IsComplete(item: Item, filter: seq<string>)
    ensures IsComplete(item, filter) <==>
      GetTotals(item, filter).need > 0 &&
      forall k :: 0 <= k < |VisibleTypes(filter)| ==> CellSatisfied(item, VisibleTypes(filter)[k])
  {
    var totals := GetTotals(item, filter);
    totals.need > 0 && totals.done >= totals.need
  }

  /** A row whose visible cells are all `'x'` is never complete, whatever
      its counters hold. */
  lemma AllUnboundedNeverComplete(item: Item, filter: seq<string>)
    requires forall k :: 0 <= k < |VisibleTypes(filter)| ==> IsUnbounded(item, VisibleTypes(filter)[k])
    ensures !IsComplete(item, filter)
  {
    TotalsAllUnbounded(item, VisibleTypes(filter));
  }

  /** What the total column of a row shows (index.js:707-719). */
  datatype TotalCell = Dash | Fraction(done: int, need: int)

  /** The total cell: `'-'` when a visible cell is `'x'` or nothing is
      asked, otherwise `done/need` over the visible counted cells. */
  function TotalCellOf(item: Item, filter: seq<string>): (c: TotalCell)
    ensures c.Fraction? <==> !AnyUnbounded(item, VisibleTypes(filter)) && GetTotals(item, filter).need > 0
    ensures c.Fraction? ==> 0 < c.need && c.done <= c.need
  {
    var totals := GetTotals(item, filter);
    if totals.hasInfinite then Dash
    else if totals.need > 0 then Fraction(totals.done, totals.need)
    else Dash
  }

  /** A row without `'x'` cells shows a full fraction exactly when it is
      complete; a row with a visible `'x'` cell shows `'-'` even when it is
      complete. */
  lemma TotalCellFull(item: Item, filter: seq<string>)
    ensures !AnyUnbounded(item, VisibleTypes(filter)) ==>
      (IsComplete(item, filter) <==>
       exists n :: 0 < n && TotalCellOf(item, filter) == Fraction(n, n))
    ensures AnyUnbounded(item, VisibleTypes(filter)) ==> TotalCellOf(item, filter) == Dash
  {
    var totals := GetTotals(item, filter);
    if !totals.hasInfinite && IsComplete(item, filter) {
      assert TotalCellOf(item, filter) == Fraction(totals.need, totals.need);
    }
  }

  // ---------------------------------------------------------------------------
  // Progress cells (index.js:625-669).

  /** The click on a counted cell with need `need` > 0 (index.js:659-666):
      below the need it counts up by one, otherwise it wraps to 0. */
  function CountClick(done: int, need: int): (r: int)
    requires need > 0
    ensures r <= need
    ensures 0 <= done ==> 0 <= r
    ensures 0 <= done ==> (r == 0 <==> done >= need)
    ensures r != 0 ==> r == done + 1
  {
    if done < need then done + 1 else 0
  }

  /** The click on an `'x'` cell (index.js:634-636): done flips between 0 and 1. */
  function ToggleClick(done: int): (r: int)
    ensures r == 0 || r == 1
    ensures r == 1 <==> done <= 0
  {
    if done > 0 then 0 else 1
  }

  lemma ToggleTwice(done: int)
    requires done == 0 || done == 1
    ensures ToggleClick(ToggleClick(done)) == done
  {
  }

  /** `k` successive clicks on a counted cell, starting from `done`. */
  function Clicks(done: int, need: int, k: nat): int
    requires need > 0
  {
    if k == 0 then done else CountClick(Clicks(done, need, k - 1), need)
  }

  /** From 0, the first `need` clicks count 1, 2, ..., `need`. */
  lemma {:induction false} ClicksCountUp(need: int, k: nat)
    requires need > 0 && k <= need
    ensures Clicks(0, need, k) == k
  {
    if k > 0 {
      ClicksCountUp(need, k - 1);
    }
  }

  /** From 0, `need` + 1 clicks come back to 0: the cell cycles through
      0, 1, ..., `need`. */
  lemma ClicksWrap(need: int)
    requires need > 0
    ensures Clicks(0, need, need + 1) == 0
  {
    ClicksCountUp(need, need);
  }

  /** The done of type `t` lies in [0, need], or the cell is `'x'`. */
  predicate DoneWithinNeed(item: Item, t: string)
  {
    IsUnbounded(item, t) || 0 <= DoneOf(item, t) <= NeedNum(item, t)
  }

  /** A click on the cell of type `t`: `'x'` cells toggle, counted cells with a
      positive need step, and cells with need <= 0 have no click handler. Only
      that done counter changes, and a done within [0, need] stays there. */
  function ClickCell(item: Item, t: string): (r: Item)
    ensures r == item.(done := r.done)
    ensures forall u :: u != t ==> DoneOf(r, u) == DoneOf(item, u)
    ensures IsUnbounded(item, t) ==> DoneOf(r, t) == ToggleClick(DoneOf(item, t))
    ensures !IsUnbounded(item, t) && NeedNum(item, t) <= 0 ==> r == item
    ensures !IsUnbounded(item, t) && NeedNum(item, t) > 0 ==>
      DoneOf(r, t) == CountClick(DoneOf(item, t), NeedNum(item, t))
    ensures DoneWithinNeed(item, t) ==> DoneWithinNeed(r, t)
  {
    if IsUnbounded(item, t) then
      item.(done := item.done[t := ToggleClick(DoneOf(item, t))])
    else
      var need := NeedNum(item, t);
      if need <= 0 then item
      else item.(done := item.done[t := CountClick(DoneOf(item, t), need)])
  }

  // ---------------------------------------------------------------------------
  // Resets (index.js:728-731 and 749-753).

  /** Sets done to 0 for every type of `types`. */
  function ZeroDone(done: map<string, int>, types: seq<string>): (r: map<string, int>)
    ensures forall t :: t in r <==> t in done || t in types
    ensures forall t :: t in types ==> r[t] == 0
    ensures forall t :: t in done && t !in types ==> r[t] == done[t]
    decreases |types|
  {
    if types == [] then done else ZeroDone(done[types[0] := 0], types[1..])
  }

  /** The row reset button: every demand type's done back to 0. */
  function ResetRow(item: Item): (r: Item)
    ensures r == item.(done := r.done)
    ensures forall t :: t in DemandTypes ==> DoneOf(r, t) == 0
    ensures forall t :: t !in DemandTypes ==> DoneOf(r, t) == DoneOf(item, t)
  {
    item.(done := ZeroDone(item.done, DemandTypes))
  }

  /** resetAllProgress once confirmed: every row reset. */
  function ResetAll(items: seq<Item>): (r: seq<Item>)
    ensures |r| == |items|
    ensures forall k :: 0 <= k < |items| ==> r[k] == items[k].(done := r[k].done)
    ensures forall k, t :: 0 <= k < |items| && t in DemandTypes ==> DoneOf(r[k], t) == 0
    ensures forall k, t :: 0 <= k < |items| && t !in DemandTypes ==> DoneOf(r[k], t) == DoneOf(items[k], t)
  {
    seq(|items|, k requires 0 <= k < |items| => ResetRow(items[k]))
  }

  /** After a reset, no row counts as complete under any filter of demand
      types: every visible counted cell then reads 0 done, so each can be
      satisfied only by a need of at most 0. */
  lemma ResetRowIncomplete(item: Item, filter: seq<string>)
    requires forall k :: 0 <= k < |filter| ==> filter[k] in DemandTypes
    ensures !IsComplete(ResetRow(item), filter)
  {
    var r := ResetRow(item);
    var types := VisibleTypes(filter);
    if IsComplete(r, filter) {
      NeedNotPositiveWhenSatisfied(r, types);
      assert false;
    }
  }

  lemma {:induction false} NeedNotPositiveWhenSatisfied(item: Item, types: seq<string>)
    requires forall k :: 0 <= k < |types| ==> DoneOf(item, types[k]) == 0
    requires forall k :: 0 <= k < |types| ==> CellSatisfied(item, types[k])
    ensures TotalsOver(item, types).need <= 0
    decreases |types|
  {
    if types != [] {
      assert forall k :: 0 < k < |types| ==> types[k] == types[1..][k - 1];
      NeedNotPositiveWhenSatisfied(item, types[1..]);
    }
  }
}

=== FILE: table.dfy ===
/** The rows renderTable shows (scripts/index.js:497-555): the season,
    category and demand-type filters, then the sort that moves complete rows
    below the incomplete ones without otherwise reordering them. */
module Table {
  import opened Ledger
  import opened Progress
  import opened Tokens

  /** Some element of `a` is also in `b` (`a.some(x => b.includes(x))`). */
  predicate Intersects(a: seq<string>, b: seq<string>)
  {
    exists k :: 0 <= k < |a| && a[k] in b
  }

  /** Step 1 of the row filter: with seasons ticked, an item that names
      seasons must be year-round or share one with the selection; an item
      without a season is never held back. */
  predicate SeasonPasses(item: Item, seasons: seq<string>)
  {
    var toks := SeasonTokens(item.season);
    !(|seasons| > 0 && |toks| > 0) || AllSeasonsToken in toks || Intersects(toks, seasons)
  }

  /** Step 2: with categories ticked, an item that names categories must share
      one with the selection. */
  predicate CategoryPasses(item: Item, categories: seq<string>)
  {
    var toks := CategoryTokens(item.category);
    !(|categories| > 0 && |toks| > 0) || Intersects(toks, categories)
  }

  /** The callback of `items.filter` (index.js:509-547); step 3 shows no row
      at all while no demand type is ticked. */
  predicate RowPasses(item: Item, seasons: seq<string>, categories: seq<string>, needTypes: seq<string>)
  {
    SeasonPasses(item, seasons) && CategoryPasses(item, categories) && |needTypes| > 0
  }

  /** `items.filter(...)`: the passing rows in their original order. */
  function FilterRows(items: seq<Item>, seasons: seq<string>, categories: seq<string>, needTypes: seq<string>): (r: seq<Item>)
    ensures |r| <= |items|
    ensures forall k :: 0 <= k < |r| ==> r[k] in items && RowPasses(r[k], seasons, categories, needTypes)
    ensures forall k :: 0 <= k < |items| && RowPasses(items[k], seasons, categories, needTypes) ==> items[k] in r
    ensures |needTypes| == 0 ==> r == []
    decreases |items|
  {
    if items == [] then []
    else
      var rest := FilterRows(items[1..], seasons, categories, needTypes);
      assert forall k :: 1 <= k < |items| ==> items[k] == items[1..][k - 1];
      if RowPasses(items[0], seasons, categories, needTypes) then [items[0]] + rest else rest
  }

  /** Filtering one row keeps it exactly when it passes. */
  lemma FilterSingle(x: Item, seasons: seq<string>, categories: seq<string>, needTypes: seq<string>)
    ensures FilterRows([x], seasons, categories, needTypes)
      == if RowPasses(x, seasons, categories, needTypes) then [x] else []
  {
    assert [x][1..] == [];
  }

  /** Filtering distributes over concatenation: the shown rows keep their
      relative order and multiplicity. With `FilterSingle` this fixes the
      result on every list of rows. */
  lemma {:induction false} FilterAppend(a: seq<Item>, b: seq<Item>, seasons: seq<string>, categories: seq<string>, needTypes: seq<string>)
    ensures FilterRows(a + b, seasons, categories, needTypes)
      == FilterRows(a, seasons, categories, needTypes) + FilterRows(b, seasons, categories, needTypes)
    decreases |a|
  {
    if a == [] {
      assert a + b == b;
    } else {
      assert (a + b)[0] == a[0];
      assert (a + b)[1..] == a[1..] + b;
      FilterAppend(a[1..], b, seasons, categories, needTypes);
    }
  }

  /** With a demand type ticked and neither seasons nor categories ticked,
      every row is shown, in order. */
  lemma {:induction false} NoSelectionKeepsAll(items: seq<Item>, needTypes: seq<string>)
    requires |needTypes| > 0
    ensures FilterRows(items, [], [], needTypes) == items
    decreases |items|
  {
    if items != [] {
      NoSelectionKeepsAll(items[1..], needTypes);
    }
  }

  /** An item whose season tokens include the year-round marker passes every
      season selection. */
  lemma YearRoundPasses(item: Item, seasons: seq<string>)
    requires AllSeasonsToken in SeasonTokens(item.season)
    ensures SeasonPasses(item, seasons)
  {
  }

  /** An item whose season field has no token (it is blank, or holds only
      separators such as `";;"`) is never held back by the season filter. */
  lemma BlankSeasonPasses(item: Item, seasons: seq<string>)
    requires SeasonTokens(item.season) == []
    ensures SeasonPasses(item, seasons)
  {
  }

  /** An item whose category field has no token (it is blank, or holds only
      separators) is never held back by the category filter. */
  lemma BlankCategoryPasses(item: Item, categories: seq<string>)
    requires CategoryTokens(item.category) == []
    ensures CategoryPasses(item, categories)
  {
  }

  /** Ticking more seasons never hides a row that was shown. */
  lemma SeasonSelectionMonotone(item: Item, seasons: seq<string>, more: seq<string>)
    requires |seasons| > 0
    requires forall k :: 0 <= k < |seasons| ==> seasons[k] in more
    requires SeasonPasses(item, seasons)
    ensures SeasonPasses(item, more)
  {
    var toks := SeasonTokens(item.season);
    if |toks| > 0 && AllSeasonsToken !in toks {
      var k :| 0 <= k < |toks| && toks[k] in seasons;
      assert toks[k] in more;
    }
  }

  /** Ticking more categories never hides a row that was shown. */
  lemma CategorySelectionMonotone(item: Item, categories: seq<string>, more: seq<string>)
    requires |categories| > 0
    requires forall k :: 0 <= k < |categories| ==> categories[k] in more
    requires CategoryPasses(item, categories)
    ensures CategoryPasses(item, more)
  {
    var toks := CategoryTokens(item.category);
    if |toks| > 0 {
      var k :| 0 <= k < |toks| && toks[k] in categories;
      assert toks[k] in more;
    }
  }

  /** A row that passes the filter is shown. */
  lemma PassingRowShown(items: seq<Item>, k: int, seasons: seq<string>, categories: seq<string>, needTypes: seq<string>)
    requires 0 <= k < |items| && RowPasses(items[k], seasons, categories, needTypes)
    ensures FilterRows(items, seasons, categories, needTypes) != []
  {
    assert items[k] in FilterRows(items, seasons, categories, needTypes);
  }

  /** An item naming season `s` passes the selection of `s` alone. */
  lemma NamedSeasonPasses(item: Item, s: string)
    requires s in SeasonTokens(item.season)
    ensures SeasonPasses(item, [s])
  {
    var toks := SeasonTokens(item.season);
    var i :| 0 <= i < |toks| && toks[i] == s;
    assert Intersects(toks, [s]);
  }

  /** An item naming category `c` passes the selection of `c` alone. */
  lemma NamedCategoryPasses(item: Item, c: string)
    requires c in CategoryTokens(item.category)
    ensures CategoryPasses(item, [c])
  {
    var toks := CategoryTokens(item.category);
    var i :| 0 <= i < |toks| && toks[i] == c;
    assert Intersects(toks, [c]);
  }

  /** Ticking a season that getAllSeasons offers shows at least one row, as
      long as a demand type is ticked and no category is. */
  lemma OfferedSeasonShowsRow(items: seq<Item>, s: string, needTypes: seq<string>)
    requires s in AllSeasons(items)
    requires |needTypes| > 0
    ensures FilterRows(items, [s], [], needTypes) != []
  {
    var k :| 0 <= k < |items| && s in SeasonTokens(items[k].season);
    NamedSeasonPasses(items[k], s);
    PassingRowShown(items, k, [s], [], needTypes);
  }

  /** Ticking a category that getAllCategories offers shows at least one row,
      as long as a demand type is ticked and no season is. */
  lemma OfferedCategoryShowsRow(items: seq<Item>, c: string, needTypes: seq<string>)
    requires c in AllCategories(items)
    requires |needTypes| > 0
    ensures FilterRows(items, [], [c], needTypes) != []
  {
    var k :| 0 <= k < |items| && c in CategoryTokens(items[k].category);
    NamedCategoryPasses(items[k], c);
    PassingRowShown(items, k, [], [c], needTypes);
  }

  // ---------------------------------------------------------------------------
  // The complete-last sort (index.js:550-555)

  /** The rows of `rows` that are not complete under `filter`, in order. */
  function Incomplete(rows: seq<Item>, filter: seq<string>): (r: seq<Item>)
    ensures forall k :: 0 <= k < |r| ==> !IsComplete(r[k], filter)
    decreases |rows|
  {
    if rows == [] then []
    else
      var last := rows[|rows| - 1];
      Incomplete(rows[..|rows| - 1], filter) + (if IsComplete(last, filter) then [] else [last])
  }

  /** The rows of `rows` that are complete under `filter`, in order. */
  function Completed(rows: seq<Item>, filter: seq<string>): (r: seq<Item>)
    ensures forall k :: 0 <= k < |r| ==> IsComplete(r[k], filter)
    decreases |rows|
  {
    if rows == [] then []
    else
      var last := rows[|rows| - 1];
      Completed(rows[..|rows| - 1], filter) + (if IsComplete(last, filter) then [last] else [])
  }

  /** No complete row comes before an incomplete one. */
  predicate CompleteLast(rows: seq<Item>, filter: seq<string>)
  {
    forall i, j :: 0 <= i < j < |rows| && IsComplete(rows[i], filter) ==> IsComplete(rows[j], filter)
  }

  lemma {:induction false} PartitionPermutes(rows: seq<Item>, filter: seq<string>)
    ensures multiset(Incomplete(rows, filter) + Completed(rows, filter)) == multiset(rows)
    decreases |rows|
  {
    if rows != [] {
      var init := rows[..|rows| - 1];
      PartitionPermutes(init, filter);
      assert rows == init + [rows[|rows| - 1]];
    }
  }

  /** The incomplete rows come first, then the complete ones. */
  lemma PartitionShape(rows: seq<Item>, filter: seq<string>)
    ensures CompleteLast(Incomplete(rows, filter) + Completed(rows, filter), filter)
    ensures forall k :: 0 <= k < |Incomplete(rows, filter)| ==> !IsComplete((Incomplete(rows, filter) + Completed(rows, filter))[k], filter)
    ensures forall k :: |Incomplete(rows, filter)| <= k < |Incomplete(rows, filter) + Completed(rows, filter)| ==>
      IsComplete((Incomplete(rows, filter) + Completed(rows, filter))[k], filter)
  {
    var inc := Incomplete(rows, filter);
    var out := inc + Completed(rows, filter);
    assert forall k :: |inc| <= k < |out| ==> out[k] == Completed(rows, filter)[k - |inc|];
  }

  lemma {:induction false} PartitionLength(rows: seq<Item>, filter: seq<string>)
    ensures |Incomplete(rows, filter)| + |Completed(rows, filter)| == |rows|
    decreases |rows|
  {
    if rows != [] {
      PartitionLength(rows[..|rows| - 1], filter);
    }
  }

  /** Appending a row extends exactly one of the two classes. */
  lemma PartitionSnoc(rows: seq<Item>, x: Item, filter: seq<string>)
    ensures Incomplete(rows + [x], filter) == Incomplete(rows, filter) + (if IsComplete(x, filter) then [] else [x])
    ensures Completed(rows + [x], filter) == Completed(rows, filter) + (if IsComplete(x, filter) then [x] else [])
  {
    var rows' := rows + [x];
    assert rows'[..|rows'| - 1] == rows;
  }

  /** One insertion step for a complete row: it goes to the end. */
  lemma InsertComplete(rows: seq<Item>, x: Item, filter: seq<string>)
    requires IsComplete(x, filter)
    ensures Incomplete(rows, filter) + Completed(rows, filter) + [x] == Incomplete(rows + [x], filter) + Completed(rows + [x], filter)
  {
    PartitionSnoc(rows, x, filter);
    var inc := Incomplete(rows, filter);
    assert inc + [] == inc;
  }

  /** One insertion step for an incomplete row: it goes right after the
      incomplete rows so far. */
  lemma InsertIncomplete(rows: seq<Item>, x: Item, filter: seq<string>)
    requires !IsComplete(x, filter)
    ensures Incomplete(rows, filter) + [x] + Completed(rows, filter) == Incomplete(rows + [x], filter) + Completed(rows + [x], filter)
  {
    PartitionSnoc(rows, x, filter);
    var com := Completed(rows, filter);
    assert com + [] == com;
  }

  /** One insertion step at position `j` of the sorted rows so far. */
  lemma InsertStep(rows: seq<Item>, x: Item, filter: seq<string>, j: nat)
    requires j == if IsComplete(x, filter) then |rows| else |Incomplete(rows, filter)|
    ensures j <= |Incomplete(rows, filter) + Completed(rows, filter)|
    ensures var out := Incomplete(rows, filter) + Completed(rows, filter);
      out[..j] + [x] + out[j..] == Incomplete(rows + [x], filter) + Completed(rows + [x], filter)
  {
    var inc := Incomplete(rows, filter);
    var com := Completed(rows, filter);
    PartitionLength(rows, filter);
    var out := inc + com;
    if IsComplete(x, filter) {
      InsertComplete(rows, x, filter);
      assert out[..j] == out && out[j..] == [];
    } else {
      InsertIncomplete(rows, x, filter);
      assert out[..j] == inc && out[j..] == com;
    }
  }

  /** Inserts `x` after every row of `out` that does not compare greater
      than it: scanning back from the end, it passes complete rows only while
      `x` is incomplete. */
  method InsertRow(out: seq<Item>, x: Item, filter: seq<string>, ghost rows: seq<Item>) returns (out': seq<Item>)
    requires out == Incomplete(rows, filter) + Completed(rows, filter)
    ensures out' == Incomplete(rows + [x], filter) + Completed(rows + [x], filter)
  {
    ghost var inc := Incomplete(rows, filter);
    PartitionShape(rows, filter);
    PartitionLength(rows, filter);
    var j := |out|;
    while j > 0 && IsComplete(out[j - 1], filter) && !IsComplete(x, filter)
      invariant |inc| <= j <= |out|
      invariant IsComplete(x, filter) ==> j == |out|
    {
      j := j - 1;
    }
    InsertStep(rows, x, filter, j);
    out' := out[..j] + [x] + out[j..];
  }

  /** `filteredItems.sort(...)` with the completion comparator, as the
      insertion sort a stable sort amounts to. */
  method SortCompleteLast(rows: seq<Item>, filter: seq<string>) returns (out: seq<Item>)
    ensures out == Incomplete(rows, filter) + Completed(rows, filter)
    ensures multiset(out) == multiset(rows)
    ensures CompleteLast(out, filter)
  {
    out := [];
    var i := 0;
    while i < |rows|
      invariant 0 <= i <= |rows|
      invariant out == Incomplete(rows[..i], filter) + Completed(rows[..i], filter)
    {
      out := InsertRow(out, rows[i], filter, rows[..i]);
      assert rows[..i + 1] == rows[..i] + [rows[i]];
      i := i + 1;
    }
    assert rows[..|rows|] == rows;
    PartitionPermutes(rows, filter);
    PartitionShape(rows, filter);
  }
}

=== FILE: tokens.dfy ===
/** The season and category tokenisers of scripts/index.js (lines 110-163):
    a field such as `"夏;秋"` is trimmed, split on runs of separators, each
    piece trimmed again and the empty pieces dropped; the filter options are
    the distinct tokens over all items, in first-seen order. */
module Tokens {
  import opened Util
  import opened Ledger

  /** The token that marks a year-round item; it is never a season option. */
  const AllSeasonsToken := "四季"

  /** JavaScript's `\s` and the characters `String.prototype.trim` removes:
      the ECMAScript WhiteSpace and LineTerminator characters. */
  predicate IsWhitespace(c: char)
  {
    || c == '\t' || c == '\n' || c == '\U{000B}' || c == '\U{000C}' || c == '\r'
    || c == ' ' || c == '\U{00A0}' || c == '\U{1680}'
    || ('\U{2000}' <= c <= '\U{200A}')
    || c == '\U{2028}' || c == '\U{2029}' || c == '\U{202F}' || c == '\U{205F}'
    || c == '\U{3000}' || c == '\U{FEFF}'
  }

  /** One character of the class `[;、\/\s]`. */
  predicate IsSeparator(c: char)
  {
    c == ';' || c == '、' || c == '/' || IsWhitespace(c)
  }

  predicate SepFree(s: string)
  {
    forall k :: 0 <= k < |s| ==> !IsSeparator(s[k])
  }

  // ---------------------------------------------------------------------------
  // trim

  /** The first position at or after `i` that does not hold whitespace. */
  function SkipSpaceFrom(s: string, i: nat): (j: nat)
    requires i <= |s|
    ensures i <= j <= |s|
    ensures forall k :: i <= k < j ==> IsWhitespace(s[k])
    ensures j < |s| ==> !IsWhitespace(s[j])
    decreases |s| - i
  {
    if i < |s| && IsWhitespace(s[i]) then SkipSpaceFrom(s, i + 1) else i
  }

  /** The end of `s[lo..hi]` once its trailing whitespace is cut off. */
  function BackSpaceTo(s: string, lo: nat, hi: nat): (j: nat)
    requires lo <= hi <= |s|
    ensures lo <= j <= hi
    ensures forall k :: j <= k < hi ==> IsWhitespace(s[k])
    ensures j > lo ==> !IsWhitespace(s[j - 1])
    decreases hi - lo
  {
    if hi > lo && IsWhitespace(s[hi - 1]) then BackSpaceTo(s, lo, hi - 1) else hi
  }

  /** `String.prototype.trim`: the slice of `s` left once the whitespace at
      both ends is cut off. */
  function Trim(s: string): (r: string)
    ensures |r| <= |s|
    ensures r != [] ==> !IsWhitespace(r[0]) && !IsWhitespace(r[|r| - 1])
  {
    var i := SkipSpaceFrom(s, 0);
    var j := BackSpaceTo(s, i, |s|);
    s[i..j]
  }

  /** What trim cuts off is whitespace, and what it keeps is one slice. */
  lemma TrimCutsWhitespace(s: string)
    ensures exists i, j ::
      && 0 <= i <= j <= |s| && Trim(s) == s[i..j]
      && (forall k :: 0 <= k < i ==> IsWhitespace(s[k]))
      && (forall k :: j <= k < |s| ==> IsWhitespace(s[k]))
  {
    var i := SkipSpaceFrom(s, 0);
    var j := BackSpaceTo(s, i, |s|);
    assert Trim(s) == s[i..j];
    assert forall k :: j <= k < |s| ==> IsWhitespace(s[k]);
  }

  /** Trim leaves alone a string that neither starts nor ends with whitespace. */
  lemma TrimKeeps(s: string)
    requires s != [] ==> !IsWhitespace(s[0]) && !IsWhitespace(s[|s| - 1])
    ensures Trim(s) == s
  {
    if s != [] {
      assert SkipSpaceFrom(s, 0) == 0;
      assert BackSpaceTo(s, 0, |s|) == |s|;
    }
  }

  // ---------------------------------------------------------------------------
  // split(/[;、\/\s]+/)

  /** Length of the separator-free prefix of `s`. */
  function PieceEnd(s: string): (i: nat)
    ensures i <= |s|
    ensures SepFree(s[..i])
    ensures i < |s| ==> IsSeparator(s[i])
    decreases |s|
  {
    if s == [] || IsSeparator(s[0]) then 0
    else
      var i := 1 + PieceEnd(s[1..]);
      assert forall k :: 1 <= k < i ==> s[..i][k] == s[1..][..i - 1][k - 1];
      i
  }

  /** `s` without its leading run of separators. */
  function DropSeps(s: string): (r: string)
    ensures |r| <= |s| && r == s[|s| - |r|..]
    ensures s != [] && IsSeparator(s[0]) ==> |r| < |s|
    ensures forall k :: 0 <= k < |s| - |r| ==> IsSeparator(s[k])
    ensures r != [] ==> !IsSeparator(r[0])
    decreases |s|
  {
    if s != [] && IsSeparator(s[0]) then
      var r := DropSeps(s[1..]);
      assert forall k :: 1 <= k < |s| - |r| ==> s[k] == s[1..][k - 1];
      r
    else s
  }

  /** `s.split(/[;、\/\s]+/)`: the pieces between maximal runs of
      separators. A leading or trailing run yields an empty piece at that end,
      and the empty string yields one empty piece. */
  function SplitRuns(s: string): (pieces: seq<string>)
    ensures |pieces| >= 1
    ensures forall k :: 0 <= k < |pieces| ==> SepFree(pieces[k])
    decreases |s|
  {
    var i := PieceEnd(s);
    if i == |s| then
      assert s[..i] == s;
      [s]
    else [s[..i]] + SplitRuns(DropSeps(s[i..]))
  }

  /** `.map(s => s.trim()).filter(Boolean)`. */
  function Clean(pieces: seq<string>): (r: seq<string>)
    ensures |r| <= |pieces|
    ensures forall k :: 0 <= k < |r| ==> r[k] != []
    decreases |pieces|
  {
    if pieces == [] then []
    else
      var t := Trim(pieces[0]);
      (if t == [] then [] else [t]) + Clean(pieces[1..])
  }

  /** The split, trim and filter chain shared by both tokenisers. */
  function Tokenize(raw: string): (r: seq<string>)
    ensures forall k :: 0 <= k < |r| ==> r[k] != [] && SepFree(r[k])
  {
    var pieces := SplitRuns(raw);
    CleanSepFree(pieces);
    Clean(pieces)
  }

  /** getSeasonTokens (index.js:142-152). */
  function SeasonTokens(season: string): (r: seq<string>)
    ensures Trim(season) == [] ==> r == []
    ensures Trim(season) == AllSeasonsToken ==> r == [AllSeasonsToken]
    ensures forall k :: 0 <= k < |r| ==> r[k] != [] && SepFree(r[k])
  {
    var raw := Trim(season);
    if raw == [] then []
    else if raw == AllSeasonsToken then
      assert SepFree(AllSeasonsToken);
      [AllSeasonsToken]
    else Tokenize(raw)
  }

  /** getCategoryTokens (index.js:154-163). */
  function CategoryTokens(category: string): (r: seq<string>)
    ensures Trim(category) == [] ==> r == []
    ensures forall k :: 0 <= k < |r| ==> r[k] != [] && SepFree(r[k])
  {
    var raw := Trim(category);
    if raw == [] then [] else Tokenize(raw)
  }

  // ---------------------------------------------------------------------------
  // Reference views: the text a token list carries and the text it rebuilds.

  /** The tokens run together. */
  function Concat(ts: seq<string>): string
    decreases |ts|
  {
    if ts == [] then [] else ts[0] + Concat(ts[1..])
  }

  /** The characters of `s` that are not separators, in order. */
  function RemoveSeps(s: string): string
    decreases |s|
  {
    if s == [] then []
    else (if IsSeparator(s[0]) then [] else [s[0]]) + RemoveSeps(s[1..])
  }

  /** The tokens joined with `;`, the way the item sheet writes them. */
  function Join(ts: seq<string>): string
    decreases |ts|
  {
    if |ts| == 0 then []
    else if |ts| == 1 then ts[0]
    else ts[0] + ";" + Join(ts[1..])
  }

  lemma {:induction false} RemoveSepsAppend(a: string, b: string)
    ensures RemoveSeps(a + b) == RemoveSeps(a) + RemoveSeps(b)
    decreases |a|
  {
    if a == [] {
      assert a + b == b;
    } else {
      assert (a + b)[0] == a[0];
      assert (a + b)[1..] == a[1..] + b;
      RemoveSepsAppend(a[1..], b);
      var h := if IsSeparator(a[0]) then [] else [a[0]];
      assert RemoveSeps(a + b) == h + (RemoveSeps(a[1..]) + RemoveSeps(b));
    }
  }

  lemma {:induction false} RemoveSepsSepFree(s: string)
    requires SepFree(s)
    ensures RemoveSeps(s) == s
    decreases |s|
  {
    if s != [] {
      assert forall k :: 0 <= k < |s| - 1 ==> s[1..][k] == s[k + 1];
      RemoveSepsSepFree(s[1..]);
    }
  }

  lemma {:induction false} RemoveSepsAllSeps(s: string)
    requires forall k :: 0 <= k < |s| ==> IsSeparator(s[k])
    ensures RemoveSeps(s) == []
    decreases |s|
  {
    if s != [] {
      assert forall k :: 0 <= k < |s| - 1 ==> s[1..][k] == s[k + 1];
      RemoveSepsAllSeps(s[1..]);
    }
  }

  /** Trimming removes only separators, so it keeps the non-separator text. */
  lemma RemoveSepsTrim(s: string)
    ensures RemoveSeps(Trim(s)) == RemoveSeps(s)
  {
    var i := SkipSpaceFrom(s, 0);
    var j := BackSpaceTo(s, i, |s|);
    RemoveSepsAround(s[..i], s[i..j], s[j..]);
    assert s == s[..i] + s[i..j] + s[j..];
  }

  /** Separators around `mid` leave no text behind. */
  lemma RemoveSepsAround(front: string, mid: string, back: string)
    requires forall k :: 0 <= k < |front| ==> IsWhitespace(front[k])
    requires forall k :: 0 <= k < |back| ==> IsWhitespace(back[k])
    ensures RemoveSeps(front + mid + back) == RemoveSeps(mid)
  {
    assert front + mid + back == front + (mid + back);
    RemoveSepsAppend(front, mid + back);
    RemoveSepsAppend(mid, back);
    RemoveSepsAllSeps(front);
    RemoveSepsAllSeps(back);
  }

  /** A piece without separators has no whitespace to trim. */
  lemma TrimSepFree(p: string)
    requires SepFree(p)
    ensures Trim(p) == p
  {
    TrimKeeps(p);
  }

  lemma {:induction false} CleanSepFree(pieces: seq<string>)
    requires forall k :: 0 <= k < |pieces| ==> SepFree(pieces[k])
    ensures forall k :: 0 <= k < |Clean(pieces)| ==> SepFree(Clean(pieces)[k])
    ensures Concat(Clean(pieces)) == Concat(pieces)
    decreases |pieces|
  {
    if pieces != [] {
      TrimSepFree(pieces[0]);
      CleanSepFree(pieces[1..]);
      var rest := Clean(pieces[1..]);
      if pieces[0] == [] {
        assert Clean(pieces) == rest;
      } else {
        assert Clean(pieces) == [pieces[0]] + rest;
        assert Clean(pieces)[1..] == rest;
        assert Concat(Clean(pieces)) == pieces[0] + Concat(rest);
      }
    }
  }

  lemma {:induction false} DropSepsText(s: string)
    ensures RemoveSeps(DropSeps(s)) == RemoveSeps(s)
    decreases |s|
  {
    if s != [] && IsSeparator(s[0]) {
      DropSepsText(s[1..]);
    }
  }

  /** The separator-free text of `s` around its first run of separators. */
  lemma RemoveSepsStep(s: string, i: nat)
    requires i == PieceEnd(s) && i < |s|
    ensures RemoveSeps(s) == s[..i] + RemoveSeps(DropSeps(s[i..]))
  {
    assert s == s[..i] + s[i..];
    RemoveSepsAppend(s[..i], s[i..]);
    RemoveSepsSepFree(s[..i]);
    DropSepsText(s[i..]);
  }

  /** Splitting loses exactly the separators. */
  lemma {:induction false} SplitRunsText(s: string)
    ensures Concat(SplitRuns(s)) == RemoveSeps(s)
    decreases |s|
  {
    var i := PieceEnd(s);
    if i == |s| {
      assert s[..i] == s;
      RemoveSepsSepFree(s);
      assert SplitRuns(s) == [s];
      assert Concat([s]) == s + Concat([]);
    } else {
      var rest := DropSeps(s[i..]);
      RemoveSepsStep(s, i);
      SplitRunsText(rest);
      var ps := SplitRuns(s);
      assert ps[0] == s[..i] && ps[1..] == SplitRuns(rest);
    }
  }

  /** The tokens of a field, run together, are the field's non-separator
      characters: nothing is lost and nothing is added. */
  lemma TokenizeText(raw: string)
    ensures Concat(Tokenize(raw)) == RemoveSeps(raw)
  {
    CleanSepFree(SplitRuns(raw));
    SplitRunsText(raw);
  }

  lemma SeasonTokensText(season: string)
    ensures Concat(SeasonTokens(season)) == RemoveSeps(season)
  {
    var raw := Trim(season);
    RemoveSepsTrim(season);
    if raw == [] {
    } else if raw == AllSeasonsToken {
      assert SepFree(AllSeasonsToken);
      RemoveSepsSepFree(AllSeasonsToken);
      assert Concat([AllSeasonsToken]) == AllSeasonsToken + Concat([]);
    } else {
      TokenizeText(raw);
    }
  }

  lemma CategoryTokensText(category: string)
    ensures Concat(CategoryTokens(category)) == RemoveSeps(category)
  {
    RemoveSepsTrim(category);
    if Trim(category) != [] {
      TokenizeText(Trim(category));
    }
  }

  // ---------------------------------------------------------------------------
  // Round trip: tokens written with `;` between them read back unchanged.

  /** Tokens the sheet can carry: non-empty and separator-free. */
  predicate WellFormed(ts: seq<string>)
  {
    forall k :: 0 <= k < |ts| ==> ts[k] != [] && SepFree(ts[k])
  }

  lemma {:induction false} PieceEndSepFree(a: string, b: string)
    requires SepFree(a)
    requires b != [] ==> IsSeparator(b[0])
    ensures PieceEnd(a + b) == |a|
    decreases |a|
  {
    if a != [] {
      assert (a + b)[1..] == a[1..] + b;
      PieceEndSepFree(a[1..], b);
    }
  }

  lemma {:induction false} JoinEnds(ts: seq<string>)
    requires WellFormed(ts) && ts != []
    ensures Join(ts) != []
    ensures Join(ts)[0] == ts[0][0]
    ensures Join(ts)[|Join(ts)| - 1] == ts[|ts| - 1][|ts[|ts| - 1]| - 1]
    decreases |ts|
  {
    if |ts| > 1 {
      JoinEnds(ts[1..]);
    }
  }

  /** A separator-free token is a single piece. */
  lemma SplitRunsToken(t: string)
    requires SepFree(t)
    ensures SplitRuns(t) == [t]
  {
    PieceEndSepFree(t, []);
    assert t + [] == t;
  }

  /** A token, a `;` and text that starts with a non-separator: the token is
      the first piece and the text gives the rest. */
  lemma SplitRunsCons(t: string, rest: string)
    requires SepFree(t)
    requires rest != [] && !IsSeparator(rest[0])
    ensures SplitRuns(t + ";" + rest) == [t] + SplitRuns(rest)
  {
    var s := t + ";" + rest;
    assert s == t + (";" + rest);
    PieceEndSepFree(t, ";" + rest);
    assert s[..|t|] == t;
    assert s[|t|..] == ";" + rest;
    assert (";" + rest)[1..] == rest;
  }

  lemma CleanCons(t: string, ps: seq<string>)
    requires t != [] && SepFree(t)
    ensures Clean([t] + ps) == [t] + Clean(ps)
  {
    TrimSepFree(t);
    assert ([t] + ps)[1..] == ps;
  }

  lemma {:induction false} SplitRunsJoin(ts: seq<string>)
    requires WellFormed(ts)
    ensures Clean(SplitRuns(Join(ts))) == ts
    decreases |ts|
  {
    if |ts| == 0 {
      assert SplitRuns([]) == [[]];
    } else if |ts| == 1 {
      SplitRunsToken(ts[0]);
      CleanCons(ts[0], []);
    } else {
      var rest := Join(ts[1..]);
      JoinEnds(ts[1..]);
      SplitRunsCons(ts[0], rest);
      SplitRunsJoin(ts[1..]);
      CleanCons(ts[0], SplitRuns(rest));
    }
  }

  lemma TokenizeJoin(ts: seq<string>)
    requires WellFormed(ts)
    ensures Tokenize(Join(ts)) == ts
  {
    SplitRunsJoin(ts);
  }

  /** A season field written as `;`-joined tokens reads back as those tokens,
      the year-round marker included. */
  lemma SeasonTokensJoin(ts: seq<string>)
    requires WellFormed(ts)
    ensures SeasonTokens(Join(ts)) == ts
  {
    var s := Join(ts);
    if ts != [] {
      JoinEnds(ts);
    }
    TrimKeeps(s);
    TokenizeJoin(ts);
  }

  lemma CategoryTokensJoin(ts: seq<string>)
    requires WellFormed(ts)
    ensures CategoryTokens(Join(ts)) == ts
  {
    if ts != [] {
      JoinEnds(ts);
    }
    TrimKeeps(Join(ts));
    TokenizeJoin(ts);
  }

  // ---------------------------------------------------------------------------
  // Round trip with any separators: between two tokens, any non-empty run of
  // `;`, `、`, `/` and whitespace splits them.

  /** A run of separator characters. */
  predicate AllSeps(sep: string)
  {
    forall i :: 0 <= i < |sep| ==> IsSeparator(sep[i])
  }

  /** Non-empty separator runs, one per gap between tokens. */
  predicate SeparatorRuns(seps: seq<string>)
  {
    forall k :: 0 <= k < |seps| ==> seps[k] != [] && AllSeps(seps[k])
  }

  /** The tokens written with run `seps[k]` between tokens `k` and `k + 1`. */
  function JoinRuns(ts: seq<string>, seps: seq<string>): string
    requires |ts| == 0 || |seps| == |ts| - 1
    decreases |ts|
  {
    if |ts| == 0 then []
    else if |ts| == 1 then ts[0]
    else ts[0] + seps[0] + JoinRuns(ts[1..], seps[1..])
  }

  lemma {:induction false} DropSepsRun(sep: string, rest: string)
    requires AllSeps(sep)
    requires rest != [] ==> !IsSeparator(rest[0])
    ensures DropSeps(sep + rest) == rest
    decreases |sep|
  {
    if sep == [] {
      assert sep + rest == rest;
    } else {
      assert (sep + rest)[0] == sep[0];
      assert (sep + rest)[1..] == sep[1..] + rest;
      DropSepsRun(sep[1..], rest);
    }
  }

  /** A token, a separator run and text that starts with a non-separator:
      the token is the first piece and the text gives the rest. */
  lemma SplitRunsConsRun(t: string, sep: string, rest: string)
    requires SepFree(t)
    requires sep != [] && AllSeps(sep)
    requires rest != [] && !IsSeparator(rest[0])
    ensures SplitRuns(t + sep + rest) == [t] + SplitRuns(rest)
  {
    var s := t + sep + rest;
    assert s == t + (sep + rest);
    PieceEndSepFree(t, sep + rest);
    assert s[..|t|] == t;
    assert s[|t|..] == sep + rest;
    DropSepsRun(sep, rest);
  }

  lemma {:induction false} JoinRunsEnds(ts: seq<string>, seps: seq<string>)
    requires WellFormed(ts) && ts != [] && |seps| == |ts| - 1
    ensures JoinRuns(ts, seps) != []
    ensures JoinRuns(ts, seps)[0] == ts[0][0]
    ensures JoinRuns(ts, seps)[|JoinRuns(ts, seps)| - 1] == ts[|ts| - 1][|ts[|ts| - 1]| - 1]
    decreases |ts|
  {
    if |ts| > 1 {
      var r := JoinRuns(ts[1..], seps[1..]);
      JoinRunsEnds(ts[1..], seps[1..]);
      var j := JoinRuns(ts, seps);
      assert j == (ts[0] + seps[0]) + r;
      assert j[|j| - 1] == r[|r| - 1];
      assert ts[1..][|ts| - 2] == ts[|ts| - 1];
    }
  }

  lemma {:induction false} SplitRunsJoinRuns(ts: seq<string>, seps: seq<string>)
    requires WellFormed(ts) && SeparatorRuns(seps)
    requires |ts| == 0 || |seps| == |ts| - 1
    ensures Clean(SplitRuns(JoinRuns(ts, seps))) == ts
    decreases |ts|
  {
    if |ts| == 0 {
      assert SplitRuns([]) == [[]];
    } else if |ts| == 1 {
      SplitRunsToken(ts[0]);
      CleanCons(ts[0], []);
    } else {
      var rest := JoinRuns(ts[1..], seps[1..]);
      JoinRunsEnds(ts[1..], seps[1..]);
      SplitRunsConsRun(ts[0], seps[0], rest);
      SplitRunsJoinRuns(ts[1..], seps[1..]);
      CleanCons(ts[0], SplitRuns(rest));
    }
  }

  /** Tokens written with any separator runs between them read back as
      those tokens. */
  lemma TokenizeJoinRuns(ts: seq<string>, seps: seq<string>)
    requires WellFormed(ts) && SeparatorRuns(seps)
    requires |ts| == 0 || |seps| == |ts| - 1
    ensures Tokenize(JoinRuns(ts, seps)) == ts
  {
    SplitRunsJoinRuns(ts, seps);
  }

  /** A season field written with any separator runs reads back as its
      tokens, the year-round marker included. */
  lemma SeasonTokensJoinRuns(ts: seq<string>, seps: seq<string>)
    requires WellFormed(ts) && SeparatorRuns(seps)
    requires |ts| == 0 || |seps| == |ts| - 1
    ensures SeasonTokens(JoinRuns(ts, seps)) == ts
  {
    var s := JoinRuns(ts, seps);
    if ts != [] {
      JoinRunsEnds(ts, seps);
    }
    TrimKeeps(s);
    TokenizeJoinRuns(ts, seps);
  }

  /** A category field written with any separator runs reads back as its
      tokens. */
  lemma CategoryTokensJoinRuns(ts: seq<string>, seps: seq<string>)
    requires WellFormed(ts) && SeparatorRuns(seps)
    requires |ts| == 0 || |seps| == |ts| - 1
    ensures CategoryTokens(JoinRuns(ts, seps)) == ts
  {
    if ts != [] {
      JoinRunsEnds(ts, seps);
    }
    TrimKeeps(JoinRuns(ts, seps));
    TokenizeJoinRuns(ts, seps);
  }

  /** Trimming keeps a slice, so it adds no character. */
  lemma TrimSubset(s: string, c: char)
    requires c in Trim(s)
    ensures c in s
  {
    var i := SkipSpaceFrom(s, 0);
    var j := BackSpaceTo(s, i, |s|);
    var t := s[i..j];
    assert Trim(s) == t;
    var m :| 0 <= m < |t| && t[m] == c;
    assert s[i + m] == c;
  }

  // ---------------------------------------------------------------------------
  // Separator runs at either end of a field: `.filter(Boolean)` drops the
  // empty pieces they produce, so they change nothing.

  /** `.map(s => s.trim()).filter(Boolean)` on one piece. */
  lemma CleanSingle(p: string)
    ensures Clean([p]) == if Trim(p) == [] then [] else [Trim(p)]
  {
    assert [p][1..] == [];
  }

  /** Trimming and filtering work piece by piece. */
  lemma {:induction false} CleanAppend(a: seq<string>, b: seq<string>)
    ensures Clean(a + b) == Clean(a) + Clean(b)
    decreases |a|
  {
    if a == [] {
      assert a + b == b;
    } else {
      assert (a + b)[0] == a[0];
      assert (a + b)[1..] == a[1..] + b;
      CleanAppend(a[1..], b);
    }
  }

  /** Every kept piece is already trimmed, so a second pass keeps them all. */
  lemma {:induction false} CleanIdempotent(pieces: seq<string>)
    ensures Clean(Clean(pieces)) == Clean(pieces)
    decreases |pieces|
  {
    if pieces != [] {
      var t := Trim(pieces[0]);
      var h := if t == [] then [] else [t];
      assert Clean(pieces) == h + Clean(pieces[1..]);
      CleanAppend(h, Clean(pieces[1..]));
      CleanIdempotent(pieces[1..]);
      if t != [] {
        TrimKeeps(t);
        CleanSingle(t);
      }
    }
  }

  /** A character no piece holds is in no kept piece. */
  lemma {:induction false} CleanFree(pieces: seq<string>, c: char)
    requires forall k :: 0 <= k < |pieces| ==> c !in pieces[k]
    ensures forall k :: 0 <= k < |Clean(pieces)| ==> c !in Clean(pieces)[k]
    decreases |pieces|
  {
    if pieces != [] {
      var t := Trim(pieces[0]);
      var h := if t == [] then [] else [t];
      assert Clean(pieces) == h + Clean(pieces[1..]);
      CleanFree(pieces[1..], c);
      if c in t {
        TrimSubset(pieces[0], c);
      }
    }
  }

  lemma {:induction false} DropSepsPrefix(pre: string, s: string)
    requires AllSeps(pre)
    ensures DropSeps(pre + s) == DropSeps(s)
    decreases |pre|
  {
    if pre == [] {
      assert pre + s == s;
    } else {
      assert (pre + s)[0] == pre[0];
      assert (pre + s)[1..] == pre[1..] + s;
      DropSepsPrefix(pre[1..], s);
    }
  }

  /** A run of separators followed by more separators is dropped whole;
      otherwise what follows the run is kept as it is. */
  lemma {:induction false} DropSepsSuffix(x: string, post: string)
    requires AllSeps(post)
    ensures DropSeps(x + post) == if DropSeps(x) == [] then [] else DropSeps(x) + post
    decreases |x|
  {
    if x == [] {
      assert x + post == post;
      DropSepsRun(post, []);
      assert post + [] == post;
    } else {
      assert (x + post)[0] == x[0];
      if IsSeparator(x[0]) {
        assert (x + post)[1..] == x[1..] + post;
        DropSepsSuffix(x[1..], post);
      }
    }
  }

  /** A leading run of separators only adds an empty first piece. */
  lemma CleanDropSeps(s: string)
    ensures Clean(SplitRuns(DropSeps(s))) == Clean(SplitRuns(s))
  {
    if s != [] && IsSeparator(s[0]) {
      assert PieceEnd(s) == 0;
      assert s[0..] == s;
      assert SplitRuns(s) == [[]] + SplitRuns(DropSeps(s));
      CleanAppend([[]], SplitRuns(DropSeps(s)));
      CleanSingle([]);
    }
  }

  /** Separators in front of a field add no token. */
  lemma TokenizeLeadingSeps(pre: string, s: string)
    requires AllSeps(pre)
    ensures Tokenize(pre + s) == Tokenize(s)
  {
    CleanDropSeps(pre + s);
    DropSepsPrefix(pre, s);
    CleanDropSeps(s);
  }

  /** Separators after a field add no token. */
  lemma {:induction false} TokenizeTrailingSeps(s: string, post: string)
    requires AllSeps(post)
    ensures Clean(SplitRuns(s + post)) == Clean(SplitRuns(s))
    decreases |s|
  {
    var i := PieceEnd(s);
    if post == [] {
      assert s + post == s;
    } else if i == |s| {
      assert s[..i] == s;
      PieceEndSepFree(s, post);
      var t := s + post;
      assert t[..|s|] == s && t[|s|..] == post;
      DropSepsRun(post, []);
      assert post + [] == post;
      assert SplitRuns(t) == [s] + [[]];
      CleanAppend([s], [[]]);
      CleanSingle([]);
    } else {
      var x := s[i..];
      assert s == s[..i] + x;
      assert s + post == s[..i] + (x + post);
      PieceEndSepFree(s[..i], x + post);
      PieceEndSepFree(s[..i], x);
      var t := s + post;
      assert t[..i] == s[..i] && t[i..] == x + post;
      var r := DropSeps(x);
      DropSepsSuffix(x, post);
      assert SplitRuns(s) == [s[..i]] + SplitRuns(r);
      CleanAppend([s[..i]], SplitRuns(r));
      CleanAppend([s[..i]], SplitRuns(DropSeps(x + post)));
      if r != [] {
        TokenizeTrailingSeps(r, post);
      }
    }
  }

  /** Trimming a field first changes none of its tokens. */
  lemma TokenizeTrim(s: string)
    ensures Tokenize(Trim(s)) == Tokenize(s)
  {
    var i := SkipSpaceFrom(s, 0);
    var j := BackSpaceTo(s, i, |s|);
    var front, mid, back := s[..i], s[i..j], s[j..];
    assert Trim(s) == mid;
    assert AllSeps(front) by {
      forall k | 0 <= k < |front| ensures IsSeparator(front[k]) {
        assert front[k] == s[k];
      }
    }
    assert AllSeps(back) by {
      forall k | 0 <= k < |back| ensures IsSeparator(back[k]) {
        assert back[k] == s[j + k];
      }
    }
    assert s == front + (mid + back);
    TokenizeLeadingSeps(front, mid + back);
    TokenizeTrailingSeps(mid, back);
  }

  /** The season tokens are the tokens of the field: the trim and the
      year-round shortcut agree with plain tokenising on every field. */
  lemma SeasonTokensAreTokens(season: string)
    ensures SeasonTokens(season) == Tokenize(season)
  {
    TokenizeTrim(season);
    TokenizeEmpty();
    TokenizeYearRound();
  }

  lemma TokenizeEmpty()
    ensures Tokenize([]) == []
  {
    assert SplitRuns([]) == [[]];
    CleanSingle([]);
  }

  lemma TokenizeYearRound()
    ensures Tokenize(AllSeasonsToken) == [AllSeasonsToken]
  {
    assert SepFree(AllSeasonsToken);
    SplitRunsToken(AllSeasonsToken);
    TrimKeeps(AllSeasonsToken);
    CleanSingle(AllSeasonsToken);
  }

  /** The category tokens are the tokens of the field. */
  lemma CategoryTokensAreTokens(category: string)
    ensures CategoryTokens(category) == Tokenize(category)
  {
    TokenizeTrim(category);
    TokenizeEmpty();
  }

  /** Any field is tokens with separator runs between them and possibly at
      either end; such a field reads back as exactly those tokens. */
  lemma TokenizeFramed(pre: string, ts: seq<string>, seps: seq<string>, post: string)
    requires AllSeps(pre) && AllSeps(post)
    requires WellFormed(ts) && SeparatorRuns(seps)
    requires |ts| == 0 || |seps| == |ts| - 1
    ensures Tokenize(pre + JoinRuns(ts, seps) + post) == ts
  {
    var body := JoinRuns(ts, seps);
    assert pre + body + post == pre + (body + post);
    TokenizeLeadingSeps(pre, body + post);
    TokenizeTrailingSeps(body, post);
    TokenizeJoinRuns(ts, seps);
  }

  lemma SeasonTokensFramed(pre: string, ts: seq<string>, seps: seq<string>, post: string)
    requires AllSeps(pre) && AllSeps(post)
    requires WellFormed(ts) && SeparatorRuns(seps)
    requires |ts| == 0 || |seps| == |ts| - 1
    ensures SeasonTokens(pre + JoinRuns(ts, seps) + post) == ts
  {
    SeasonTokensAreTokens(pre + JoinRuns(ts, seps) + post);
    TokenizeFramed(pre, ts, seps, post);
  }

  lemma CategoryTokensFramed(pre: string, ts: seq<string>, seps: seq<string>, post: string)
    requires AllSeps(pre) && AllSeps(post)
    requires WellFormed(ts) && SeparatorRuns(seps)
    requires |ts| == 0 || |seps| == |ts| - 1
    ensures CategoryTokens(pre + JoinRuns(ts, seps) + post) == ts
  {
    CategoryTokensAreTokens(pre + JoinRuns(ts, seps) + post);
    TokenizeFramed(pre, ts, seps, post);
  }

  /** A field of separators only, such as `";;"`, has no season and no
      category token. */
  lemma SeparatorsOnlyNoTokens(s: string)
    requires AllSeps(s)
    ensures SeasonTokens(s) == [] && CategoryTokens(s) == []
  {
    SeasonTokensAreTokens(s);
    CategoryTokensAreTokens(s);
    TokenizeLeadingSeps(s, []);
    assert s + [] == s;
    TokenizeEmpty();
  }

  // ---------------------------------------------------------------------------
  // getAllSeasons and getAllCategories (index.js:110-134)

  /** `set.add` of each token of `toks` not in `skip`, in order. */
  function AddTokens(acc: seq<string>, toks: seq<string>, skip: set<string>): (r: seq<string>)
    requires NoDuplicates(acc)
    ensures NoDuplicates(r)
    ensures acc <= r
    ensures forall s :: s in r <==> s in acc || (s in toks && s !in skip)
    decreases |toks|
  {
    if toks == [] then acc
    else
      var t := toks[0];
      var acc' := if t in acc || t in skip then acc else acc + [t];
      assert toks == [t] + toks[1..];
      AddTokens(acc', toks[1..], skip)
  }

  /** The forEach over items of the token lists `lists`. */
  function AddLists(acc: seq<string>, lists: seq<seq<string>>, skip: set<string>): (r: seq<string>)
    requires NoDuplicates(acc)
    ensures NoDuplicates(r)
    ensures acc <= r
    ensures forall s :: s in r <==> s in acc || (s !in skip && exists k :: 0 <= k < |lists| && s in lists[k])
    decreases |lists|
  {
    if lists == [] then acc
    else
      var r := AddLists(AddTokens(acc, lists[0], skip), lists[1..], skip);
      assert forall s :: s in r ==> s in acc || (s !in skip && exists k :: 0 <= k < |lists| && s in lists[k]) by {
        forall s | s in r && s !in acc && s !in lists[0]
          ensures s !in skip && exists k :: 0 <= k < |lists| && s in lists[k]
        {
          var k :| 0 <= k < |lists[1..]| && s in lists[1..][k];
          assert s in lists[k + 1];
        }
      }
      assert forall s :: s !in skip && (exists k :: 0 <= k < |lists| && s in lists[k]) ==> s in r by {
        forall s | s !in skip && exists k :: 0 <= k < |lists| && s in lists[k]
          ensures s in r
        {
          var k :| 0 <= k < |lists| && s in lists[k];
          if k > 0 {
            assert s in lists[1..][k - 1];
          }
        }
      }
      r
  }

  /** One token is appended exactly when it is new and not skipped. */
  lemma AddTokensSingle(acc: seq<string>, t: string, skip: set<string>)
    requires NoDuplicates(acc)
    ensures AddTokens(acc, [t], skip) == if t in acc || t in skip then acc else acc + [t]
  {
    assert [t][1..] == [];
  }

  /** Adding two runs of tokens is adding the first, then the second. With
      `AddTokensSingle` this fixes the insertion order of every result. */
  lemma {:induction false} AddTokensAppend(acc: seq<string>, a: seq<string>, b: seq<string>, skip: set<string>)
    requires NoDuplicates(acc)
    ensures AddTokens(acc, a + b, skip) == AddTokens(AddTokens(acc, a, skip), b, skip)
    decreases |a|
  {
    if a == [] {
      assert a + b == b;
    } else {
      var t := a[0];
      var acc' := if t in acc || t in skip then acc else acc + [t];
      assert (a + b)[0] == t;
      assert (a + b)[1..] == a[1..] + b;
      AddTokensAppend(acc', a[1..], b, skip);
    }
  }

  /** The token lists run together, list by list. */
  function Flatten(lists: seq<seq<string>>): seq<string>
    decreases |lists|
  {
    if lists == [] then [] else lists[0] + Flatten(lists[1..])
  }

  /** The forEach over items adds the tokens of all lists in one run, in
      item order and token order. */
  lemma {:induction false} AddListsFlat(acc: seq<string>, lists: seq<seq<string>>, skip: set<string>)
    requires NoDuplicates(acc)
    ensures AddLists(acc, lists, skip) == AddTokens(acc, Flatten(lists), skip)
    decreases |lists|
  {
    if lists != [] {
      AddListsFlat(AddTokens(acc, lists[0], skip), lists[1..], skip);
      AddTokensAppend(acc, lists[0], Flatten(lists[1..]), skip);
    }
  }

  /** The season options are the season tokens of all items added in order:
      each appears at its first occurrence. */
  lemma AllSeasonsOrder(items: seq<Item>)
    ensures AllSeasons(items) == AddTokens([], Flatten(SeasonLists(items)), {AllSeasonsToken})
  {
    AddListsFlat([], SeasonLists(items), {AllSeasonsToken});
  }

  /** The category options are the category tokens of all items added in
      order. */
  lemma AllCategoriesOrder(items: seq<Item>)
    ensures AllCategories(items) == AddTokens([], Flatten(CategoryLists(items)), {})
  {
    AddListsFlat([], CategoryLists(items), {});
  }

  /** The season token lists of `items`, item by item. */
  function SeasonLists(items: seq<Item>): (lists: seq<seq<string>>)
    ensures |lists| == |items|
    ensures forall k :: 0 <= k < |items| ==> lists[k] == SeasonTokens(items[k].season)
  {
    seq(|items|, k requires 0 <= k < |items| => SeasonTokens(items[k].season))
  }

  /** The category token lists of `items`, item by item. */
  function CategoryLists(items: seq<Item>): (lists: seq<seq<string>>)
    ensures |lists| == |items|
    ensures forall k :: 0 <= k < |items| ==> lists[k] == CategoryTokens(items[k].category)
  {
    seq(|items|, k requires 0 <= k < |items| => CategoryTokens(items[k].category))
  }

  /** getAllSeasons: every season token of every item, once, except the
      year-round marker. */
  function AllSeasons(items: seq<Item>): (r: seq<string>)
    ensures NoDuplicates(r)
    ensures AllSeasonsToken !in r
    ensures forall s :: s in r <==>
      s != AllSeasonsToken && exists k :: 0 <= k < |items| && s in SeasonTokens(items[k].season)
  {
    AddLists([], SeasonLists(items), {AllSeasonsToken})
  }

  /** getAllCategories: every category token of every item, once. */
  function AllCategories(items: seq<Item>): (r: seq<string>)
    ensures NoDuplicates(r)
    ensures forall s :: s in r <==> exists k :: 0 <= k < |items| && s in CategoryTokens(items[k].category)
  {
    AddLists([], CategoryLists(items), {})
  }
}

=== FILE: util.dfy ===
/** Small shared vocabulary: optional values, results, and map lookups with
    a default, the way the tracker reads `m.get(k) || d`. */
module Util {

  /** A value that may be absent (a JavaScript `undefined`). */
  datatype Option<T> = None | Some(value: T)

  /** The outcome of an operation that can fail instead of throwing. */
  datatype Result<T, E> = Success(value: T) | Failure(error: E)

  /** `m[k]` when `k` is a key of `m`, otherwise `d`. */
  function GetOr<K, V>(m: map<K, V>, k: K, d: V): (r: V)
    ensures k in m ==> r == m[k]
    ensures k !in m ==> r == d
  {
    if k in m then m[k] else d
  }

  /** Every element of `s` occurs once. */
  predicate NoDuplicates<T(==)>(s: seq<T>)
  {
    forall i, j :: 0 <= i < j < |s| ==> s[i] != s[j]
  }
}
